=== FILE: README.md ===
# Rental-management dashboard: a verified model of its state logic

This project models, in Dafny, the small pieces of pure state logic inside a
React/Redux rental-management dashboard, and proves what they promise:

- the notification and payment reducers of the global store (`markAsRead`,
  `markAllAsRead`, `markPaymentAsPaid`): the floored unread counter, the
  "first matching item only" update, and idempotence;
- the add-property form validator (`validateField`, `validateForm`,
  `isFormValid`): the per-field rules, the key each message lands under, and
  the routing of the units message by its wording;
- the add-property modal: the derived vacancy `max(0, total - occupied)`,
  cleared numeric inputs becoming 0, the reset on open, the Save-button
  gating and the submit flow;
- the properties page: view-mode switching, clearing the selection on a
  filter change, select-all and clear, the three bulk actions with their
  empty-selection guard, and the per-row action toasts;
- the derived UI flags of the properties table (header and row checkboxes,
  the two column comparators), the card grid (placeholder, selected cards,
  pagination) and the bulk-actions bar (visibility, disabled buttons,
  pluralised label);
- the image upload pre-check (MIME whitelist, then a 5 MiB limit) and the
  change handler's removal branch;
- the enum-to-label formatters for payment status, chart period and
  activity type.

Handlers and reducers are pure functions from state to state. Async calls
(store mutations, the `onSubmit` promise) become an outcome parameter, and the
toasts become a returned `Notice`. Functions that the source imports but that
are not part of this model (`formatUnitValidation`, the filter type) are
parameters.

Modules, one per source unit, plus the helper modules `Options`, `Text` and
`Lookup`:
`Options`, `Text` (JavaScript `trim`, `includes`, number printing and the
"property/properties" noun), `Enums`, `Formatters`, `Lookup`
(`Array.prototype.find` by id and the "update the first match" idiom),
`Store`, `Schema`, `FormValidation`, `AddPropertyModal`, `PropertiesTable`,
`PropertiesGrid`, `BulkActionsBar`, `PropertiesPage`, `ImageUpload`.

Modelling choices:

- Text fields that may be `undefined`/`null` are `Option<string>`, and
  manager/owner ids are `Option<int>`. The falsy id `0` is handled explicitly.
  In the validator `None` covers both `undefined` and `null`. In a form edit it
  covers only `undefined` and `NaN`, because `handleFieldChange` throws on
  `null` (see "Left out").
- Money (`monthlyRevenue`, `averageRent`, payment amounts) is `real`. Unit
  counts and ids are `int`. Dates are integer timestamps, and a missing or
  empty date string is `None`.
- The enums are the string values JavaScript sees at run time. A formatter
  takes any string, so its `default` branch is reachable.
- `PropertyStatus`, `ImageUploadState`, `Property`, `PropertyFormData` and the
  view-mode enum are used by the page components but are not declared in
  types/enums.ts or types/schema.ts. The model declares them itself, with the
  fields and values the components use.
- The properties-page reducers (`setViewMode`, `setFilters`,
  `selectAllProperties`, `clearPropertySelection`) are not defined in
  store/index.ts, which has no properties slice. The model gives them the
  effect their names and call sites imply. `setViewMode` stores the mode and
  `setFilters` stores the filters, each changing nothing else.
  `selectAllProperties` replaces the selection with the given ids, and
  `clearPropertySelection` empties it.

Behaviour of the code that the contracts make explicit:

- `markAsRead` does not look at the item's `read` flag. Marking an
  already-read item decrements the counter again (`MarkAsReadIgnoresReadFlag`,
  `MarkAsReadTwice`).
- The fixture's counter starts at 3 with only two items, so the counter is not
  the number of unread items (`InitialCountDrifts`).
- The header checkbox compares counts, not ids (`HeaderCheckedWithoutMembership`).
- The city rule does not trim, unlike the name and address rules
  (`WhitespaceNameRejectedCityAccepted`).
- A units message that mentions neither "total" nor "occupied" is dropped,
  so the form counts as valid (`ValidateFormRoutesUnits`, `IsFormValid`).
- `handleSubmit` computes the error map but never stores it
  (`HandleSubmit`: the errors are unchanged).

## Model

| member | source | states |
|---|---|---|
| Lookup.FindFirst | store/index.ts:20 | `find` stops at the first element with the id: none exactly when no element has it, otherwise the first match |
| Lookup.FirstMatchUnique | store/index.ts:20 | the first match is unique |
| Lookup.UpdateFirst | store/index.ts:20-22 | only the first matching element is changed; with no match the list is unchanged |
| Store.MarkAsRead | store/index.ts:19-24 | an unknown id changes nothing; otherwise the first matching item becomes read, every other item is unchanged, and the counter drops by one, floored at 0 |
| Store.MarkAsReadKeepsCountNonNegative | store/index.ts:23 | a non-negative counter stays non-negative and never grows |
| Store.MarkAsReadIgnoresReadFlag | store/index.ts:20-24 | on an already-read item the items stay as they are but the counter still drops |
| Store.MarkAsReadTwice | store/index.ts:19-24 | repeating `markAsRead` changes no item again but decrements twice |
| Store.AllRead | store/index.ts:27 | every item becomes read and nothing else about it changes |
| Store.MarkAllAsRead | store/index.ts:26-29 | every item is read, item order and content otherwise unchanged, and the counter is 0 |
| Store.MarkAllAsReadIdempotent | store/index.ts:26-29 | applying it twice equals applying it once |
| Store.MarkAsReadAfterMarkAll | store/index.ts:19-29 | after `markAllAsRead`, `markAsRead` is a no-op |
| Store.InitialCountDrifts | data/dashboardMockData.ts:13-30 | reading both fixture items leaves a counter of 1 with no unread item |
| Store.MarkPaymentAsPaid | store/index.ts:40-45 | the first payment with the id becomes PAID and nothing else changes; an unknown id is a no-op |
| Store.MarkPaymentAsPaidIdempotent | store/index.ts:40-45 | marking the same payment twice equals marking it once |
| Text.TrimStartSpec | hooks/useFormValidation.ts:11 | leading trim drops exactly the whitespace prefix |
| Text.TrimEndSpec | hooks/useFormValidation.ts:11 | trailing trim drops exactly the whitespace suffix |
| Text.TrimSpec | hooks/useFormValidation.ts:11 | `trim()` is empty exactly for whitespace-only text, and otherwise starts and ends with non-whitespace |
| Text.ContainsIffOccurs | hooks/useFormValidation.ts:54-56 | `includes` holds exactly when the substring occurs at some position |
| Text.NatToDecimal | components/properties/BulkActionsBar.tsx:66 | a count prints as a non-empty digit string without leading zeros |
| Text.DecimalRoundTrip | components/properties/BulkActionsBar.tsx:66 | reading the printed digits back gives the number |
| Text.IntToDecimal | components/properties/PropertiesPage.tsx:90 | a negative number prints with a minus sign, and the digits always read back as the magnitude |
| Text.PropertyNoun | components/properties/PropertiesPage.tsx:129 | "property" exactly for a count of 1, "properties" otherwise |
| Text.CountPhraseReadsBack | components/properties/PropertiesPage.tsx:129 | a count phrase between any two texts reads back: the digits after the prefix decode to the count and are followed by the noun |
| Enums.ParsePaymentStatus | types/enums.ts:2-6 | recovers the status from its run-time string, and only from it |
| Enums.ParseChartPeriod | types/enums.ts:9-14 | recovers the period from its run-time string, and only from it |
| Enums.ParseActivityType | types/enums.ts:17-23 | recovers the activity type from its run-time string, and only from it |
| Formatters.FormatPaymentStatus | utils/formatters.ts:32-43 | "Unknown" exactly for strings that are not a payment status |
| Formatters.PaymentStatusLabelsRoundTrip | utils/formatters.ts:32-39 | each status's label reads back as that status and is never the fallback |
| Formatters.PaymentStatusLabelsDistinct | utils/formatters.ts:32-39 | different statuses get different labels |
| Formatters.FormatChartPeriod | utils/formatters.ts:45-58 | "Monthly" exactly for MONTHLY and for unknown strings |
| Formatters.ChartPeriodLabelsRoundTrip | utils/formatters.ts:45-54 | each period's label reads back as that period |
| Formatters.ChartPeriodFallbackCollides | utils/formatters.ts:51-56 | an unknown period gets the monthly label, so the formatter is not injective |
| Formatters.FormatActivityType | utils/formatters.ts:60-75 | "Activity" exactly for strings that are not an activity type |
| Formatters.ActivityTypeLabelsRoundTrip | utils/formatters.ts:60-71 | each type's label reads back as that type and is never the fallback |
| Schema.Ids | components/properties/PropertiesTable.tsx:96 | the ids of the rows, one per row, in order |
| FormValidation.BlankTextIffWhitespaceOnly | hooks/useFormValidation.ts:11 | `!value \|\| value.trim() === ''` holds exactly for missing or whitespace-only text |
| FormValidation.NameError | hooks/useFormValidation.ts:10-11 | an error exactly when the name is missing or whitespace only |
| FormValidation.AddressError | hooks/useFormValidation.ts:13-14 | an error exactly when the address is missing or whitespace only |
| FormValidation.CityError | hooks/useFormValidation.ts:16-17 | an error exactly when the city is missing or empty, without trimming |
| FormValidation.RevenueError | hooks/useFormValidation.ts:25-26 | an error exactly for negative revenue, with its fixed message; zero passes |
| FormValidation.ContactError | hooks/useFormValidation.ts:28-32 | an error exactly for a missing or zero id |
| FormValidation.ValidateField | hooks/useFormValidation.ts:8-37 | each field's rule and its fixed message (name, address, city, revenue, manager, owner); for units, the unit rule's message on the form's total and occupied counts; no error for fields that take the default branch |
| FormValidation.ValidateFormAgreesWithValidateField | hooks/useFormValidation.ts:43-67 | `validateForm` files a field under its key exactly when `validateField` fails for it, with `validateField`'s message |
| FormValidation.ValidateFormRoutesValidateField | hooks/useFormValidation.ts:52-59 | the units message `validateField` returns is filed under total or occupied units as its wording selects, and nowhere otherwise |
| FormValidation.AddIfSet | hooks/useFormValidation.ts:44 | a key is added only for a non-empty message; other keys are untouched |
| FormValidation.RouteUnitsError | hooks/useFormValidation.ts:52-59 | the units message goes to the key its wording selects, or nowhere |
| FormValidation.AgreesEverywhere | hooks/useFormValidation.ts:39-71 | a map that agrees with each field's rule has exactly the keys with a message, holding those messages |
| FormValidation.TextFieldErrors | hooks/useFormValidation.ts:43-50 | the name, address and city steps agree with their rules |
| FormValidation.UnitFieldErrors | hooks/useFormValidation.ts:52-59 | adding the units step keeps agreement on the text keys and adds the unit keys |
| FormValidation.ContactFieldErrors | hooks/useFormValidation.ts:61-65 | the revenue and manager steps keep agreement |
| FormValidation.AllFieldErrors | hooks/useFormValidation.ts:39-70 | after the owner step the map agrees with the rules on every key |
| FormValidation.ValidateForm | hooks/useFormValidation.ts:39-71 | a key is present exactly when its field's message is non-empty, and it holds that message; the thumbnail key is never set |
| FormValidation.ValidateFormFields | hooks/useFormValidation.ts:43-68 | per key: name/address present iff missing or whitespace only, city iff missing or empty, revenue iff negative, manager/owner iff falsy, each with its fixed message |
| FormValidation.ValidateFormRoutesUnits | hooks/useFormValidation.ts:52-59 | the units message lands under total units if it contains "total", else under occupied units if it contains "occupied", else nowhere |
| FormValidation.IsFormValid | hooks/useFormValidation.ts:73-76 | valid exactly when every field passes its rule and the units message does not mention "total" or "occupied" |
| FormValidation.NoKeysIffEmpty | hooks/useFormValidation.ts:75 | an error map has no keys exactly when it is empty |
| FormValidation.WhitespaceNameRejectedCityAccepted | hooks/useFormValidation.ts:11-17 | a whitespace-only name is rejected while a whitespace-only city is accepted |
| FormValidation.ZeroRevenueAccepted | hooks/useFormValidation.ts:26 | zero revenue yields no revenue error |
| FormValidation.DefaultFormInvalid | data/addPropertyMockData.ts:78-95 | the default form is not valid; its empty name is flagged |
| AddPropertyModal.VacantOf | components/properties/AddPropertyModal.tsx:156 | the vacancy is never negative and equals total minus occupied whenever occupied is at most total |
| AddPropertyModal.HandleFieldChange | components/properties/AddPropertyModal.tsx:150-162 | only the edited field changes; a units value keeps its counts and gets its vacancy recomputed |
| AddPropertyModal.HandleUnitsChange | components/properties/AddPropertyModal.tsx:164-170 | only the edited count and the vacancy change; a cleared input becomes 0; the vacancy is derived |
| AddPropertyModal.HandleRevenueInput | components/properties/AddPropertyModal.tsx:388 | a cleared revenue input stores 0; nothing else changes |
| AddPropertyModal.HandleAverageRentInput | components/properties/AddPropertyModal.tsx:401 | a cleared average-rent input stores 0; nothing else changes |
| AddPropertyModal.UnitsEditKeepsVacancyDerived | components/properties/AddPropertyModal.tsx:164-170 | after any units edit the vacancy rule holds |
| AddPropertyModal.OnOpenChange | components/properties/AddPropertyModal.tsx:142-148 | opening resets the form to the default and clears the errors; closing changes nothing |
| AddPropertyModal.ResetFormConsistent | components/properties/AddPropertyModal.tsx:142-148 | the reset form has 1 total, 0 occupied, 1 vacant, satisfies the vacancy rule, and is not yet valid |
| AddPropertyModal.RenderFooter | components/properties/AddPropertyModal.tsx:192-206 | Save is disabled exactly when validation reports an error, loads while submitting or loading; Cancel is disabled while submitting |
| AddPropertyModal.HandleSubmit | components/properties/AddPropertyModal.tsx:172-190 | the handler computes `validateForm` of the form; `onSubmit` gets the form exactly when that map is empty; the modal closes exactly when that call resolves; `submitting` ends false; form and displayed errors are unchanged |
| AddPropertyModal.SubmitIffFormValid | components/properties/AddPropertyModal.tsx:176-182 | `onSubmit` is called exactly when `isFormValid` holds, so a form with any error never reaches the parent |
| AddPropertyModal.SaveEnabledIffSubmitCallsParent | components/properties/AddPropertyModal.tsx:176-201 | Save is enabled exactly when a submit would call `onSubmit` |
| PropertiesTable.Header | components/properties/PropertiesTable.tsx:94-95 | checked iff as many ids are selected as the data source has rows and it has rows; indeterminate iff some but fewer; the two never together |
| PropertiesTable.HeaderCheckedWithoutMembership | components/properties/PropertiesTable.tsx:94-103 | the header can be checked while a row of the data source is not |
| PropertiesTable.HeaderToggle | components/properties/PropertiesTable.tsx:96 | toggling passes the new flag and the id of every row of the data source, in data-source order, rows on other table pages included |
| PropertiesTable.RowViews | components/properties/PropertiesTable.tsx:101-105 | one row per record of the data source, in data-source order, checked iff its id is selected |
| PropertiesTable.Render | components/properties/PropertiesTable.tsx:89-105 | the selection column over the whole data source: the header state from the two count expressions, one row checkbox per record, and the loading flag passed through |
| PropertiesTable.RevenueCompare | components/properties/PropertiesTable.tsx:147 | the sign of the result orders by monthly revenue, ascending |
| PropertiesTable.RevenueCompareTotalPreorder | components/properties/PropertiesTable.tsx:147 | the revenue comparator is total, transitive and antisymmetric |
| PropertiesTable.LastPaymentCompare | components/properties/PropertiesTable.tsx:156-161 | two missing dates tie, a missing date sorts after a present one, present dates order by timestamp |
| PropertiesTable.LastPaymentCompareAntisymmetric | components/properties/PropertiesTable.tsx:156-161 | swapping the arguments flips the sign; every row ties with itself |
| PropertiesTable.LastPaymentCompareTransitive | components/properties/PropertiesTable.tsx:156-161 | "sorts no later than" is transitive |
| PropertiesGrid.CardsOf | components/properties/PropertiesGrid.tsx:61-78 | one card per property, in order and not sliced by page, selected iff its id is selected |
| PropertiesGrid.Render | components/properties/PropertiesGrid.tsx:36-95 | the placeholder iff no properties and not loading; otherwise every card, and pagination iff the total is present, non-zero and above the page size |
| BulkActionsBar.Render | components/properties/BulkActionsBar.tsx:56-108 | visible iff the count is positive; the three actions disabled iff it is 0; Clear never disabled; the label is the count, the noun and "selected" |
| BulkActionsBar.SelectionTextReadsBack | components/properties/BulkActionsBar.tsx:66 | the label's leading digits decode to the selected count, followed by the noun (singular exactly for one, by `PropertyNoun`) and "selected" |
| PropertiesPage.HandleViewModeChange | components/properties/PropertiesPage.tsx:66-68 | only the view mode changes |
| PropertiesPage.ViewModeChangeSelectsBody | components/properties/PropertiesPage.tsx:66-68 | after switching the mode the loaded page shows the table exactly for table mode and the grid otherwise, over the same selection; the bar is unaffected |
| PropertiesPage.HandleFiltersChange | components/properties/PropertiesPage.tsx:70-73 | the new filters are stored and the selection is emptied |
| PropertiesPage.HandleSelectAll | components/properties/PropertiesPage.tsx:79-85 | select-all makes the selection exactly the given ids; unselect-all empties it |
| PropertiesPage.HandleClearSelection | components/properties/PropertiesPage.tsx:168-170 | the selection is emptied and nothing else changes |
| PropertiesPage.HandleBulkAction | components/properties/PropertiesPage.tsx:121-166 | an empty selection only warns and calls no mutation; otherwise the mutation gets the selected ids, success empties the selection with a success toast naming the reported count, failure keeps it with an error toast |
| PropertiesPage.SuccessTextReadsBack | components/properties/PropertiesPage.tsx:129-159 | each success toast is the action's fixed prefix, digits that decode to the count the mutation reported, then the noun (singular exactly for a count of one, by `PropertyNoun`), then the action's suffix |
| PropertiesPage.HandlePropertyAction | components/properties/PropertiesPage.tsx:87-102 | the state never changes; an info toast exactly for view, edit, invoices and tenants |
| PropertiesPage.PropertyActionTextReadsBack | components/properties/PropertiesPage.tsx:87-100 | a per-row toast is the action's fixed text followed by the property id's digits (after a minus sign for a negative id), which decode to the id |
| PropertiesPage.Render | components/properties/PropertiesPage.tsx:172-231 | a spinner iff loading; otherwise the table iff in table mode, else the grid given the list length as total; the bar gets the selection length |
| PropertiesPage.GridOnPage | components/properties/PropertiesPage.tsx:214-221 | on the page the grid shows its placeholder iff there are no properties and paginates iff there are more than 12 |
| PropertiesPage.HeaderSelectAllChecksEverything | components/properties/PropertiesPage.tsx:79-85 | ticking the header checks the header and every row |
| PropertiesPage.HeaderUnselectAllClearsEverything | components/properties/PropertiesPage.tsx:79-85 | unticking the header unchecks every row and hides the bar |
| PropertiesPage.BarButtonsMatchGuard | components/properties/PropertiesPage.tsx:121-155 | a bar button is enabled exactly when its handler gets past the empty-selection guard |
| PropertiesPage.BulkActionBarAfterwards | components/properties/PropertiesPage.tsx:128-165 | after a success the bar hides; after a failure it is unchanged |
| PropertiesPage.FiltersChangeHidesBar | components/properties/PropertiesPage.tsx:70-73 | a filter change hides the bar |
| ImageUpload.UnderLimitIsByteBound | components/properties/PropertyImageUpload.tsx:78 | `size / 1024 / 1024 < 5` is the same as fewer than 5 MiB |
| ImageUpload.BeforeUpload | components/properties/PropertyImageUpload.tsx:71-85 | rejected for format iff the type is not jpeg/png/webp; for size iff the type is allowed and the file is at least 5 MiB; accepted iff both checks pass |
| ImageUpload.FormatCheckedFirst | components/properties/PropertyImageUpload.tsx:72-82 | a file failing both checks is rejected for its format |
| ImageUpload.HandleChange | components/properties/PropertyImageUpload.tsx:115-122 | the file list is always replaced; removal emits "" and returns to idle; any other status changes nothing else |
| AddPropertyModal.ThumbnailRemovalClearsField | components/properties/PropertyImageUpload.tsx:118-121 | removing the uploaded file empties the form's thumbnail through `handleFieldChange` (AddPropertyModal.tsx:303-307) and changes no other field |

## Left out

- The property filter engine, the property query and `togglePropertySelection`: they are not defined in the source files modelled here. The row and card checkboxes' `onChange` is therefore not modelled.
- `formatUnitValidation` is not part of this model. It is a parameter (`UnitRule`) of every member that validates units or the whole form.
- `formatCurrency`, `formatDate`, `formatTime`, `formatPercentage` and `DeltaBadge`: Intl and floating-point formatting.
- Date parsing: `new Date(...).getTime()` is modelled as an already-parsed integer timestamp. An unparsable date (NaN) is not modelled.
- PropertiesTable.LastPaymentCompare: a present but empty date string counts as missing, which is how `!date` treats it. Dates are otherwise integers.
- The upload itself (`FileReader`, the simulated delay, the uploading/success/error states it sets): asynchronous I/O.
- The `message` toasts are returned as `Notice` values. They are not displayed.
- The mutations, `refetch` and `onClose`/`onSubmit` are outcome parameters and flags, not calls.
- `InputNumber` clamping: `min={1}` on total units, `min={0}` with `max={formData.units.total}` on occupied units, and `min={0}` on revenue and average rent. The clamping belongs to the input widget, not to the handlers, so the model accepts any integer or real the handlers receive.
- The antd table's own pagination (10 rows per page) and its column sorting: the table reorders and slices its display itself. The model covers the data source the checkbox expressions read, and the comparators the sorting uses.
- HandleBulkAction: each bulk handler is one atomic step from the click to the settled mutation. In the source the handler awaits the mutation, and meanwhile the bar buttons stay enabled, because `disabled` depends only on the count. A second click then calls the mutation again. A success clears whatever selection exists when the promise settles, including toggles made during the wait. "Failure keeps the selection" holds only when nothing changed it during the wait. Interleavings are not modelled.
- `handleFieldChange` on a non-units value that happens to be an object with a `total` key: no field of the form carries such a value.
- `handleFieldChange` with a `null` value: `typeof null === 'object'` holds, so `'total' in null` at AddPropertyModal.tsx:154 throws a TypeError. No call site passes `null`: the text inputs send strings (lines 246, 264, 287) and the contact selectors send `Number(value)` (lines 436, 455). A `None` in a `FieldChange` therefore stands only for `NaN` or `undefined`, never for `null`.
- FormValidation.ValidateField: the model passes the form's own field as `value` and always supplies `formData`, as `validateForm` does (useFormValidation.ts:43-67). The path where `validateField('units', v)` is called without `formData` and returns `''` (lines 20-23) is not modelled.
- ImageUpload.HandleChange: the `onChange` callback is optional in the source, and removal calls `onChange?.('')` (PropertyImageUpload.tsx:119). The model assumes the callback is present and always emits `""`, as at its only call site (AddPropertyModal.tsx:302-306).
- Text.IntToDecimal: JavaScript numbers are doubles. A template literal prints 1e21 and above in exponent form, and integers above 2^53 lose precision. The model prints every integer in plain decimal, since ids and counts stay far below those bounds.
- The `fileList` items are a type parameter. Their content is not inspected.
- Styling, theme, sidebar, top bar, charts, panels, the `app/` pages and the downloads: presentation and DOM work.

=== FILE: add_property_modal.dfy ===
/**
 * The add-property modal (components/properties/AddPropertyModal.tsx): the
 * form edits with the derived vacancy, the reset when the modal opens, the
 * Save/Cancel button states, and the submit flow. The parent's `onSubmit`
 * promise is abstracted to its outcome.
 */
module AddPropertyModal {
  import opened Options
  import opened Schema
  import opened FormValidation
  import ImageUpload

  /** The modal's local state. `errors` is the hook's displayed error map. */
  datatype ModalState = ModalState(form: PropertyFormData, submitting: bool, errors: Errors)

  /** One edit of the form, as `handleFieldChange(field, value)` receives it. */
  datatype FieldChange =
    | ChangeName(name: Option<string>)
    | ChangeAddress(address: Option<string>)
    | ChangeCity(city: Option<string>)
    | ChangeDescription(description: string)
    | ChangeThumbnail(thumbnail: string)
    | ChangeUnits(units: Units)
    | ChangeMonthlyRevenue(revenue: real)
    | ChangeAverageRent(rent: real)
    | ChangeStatus(status: PropertyStatus)
    | ChangeManager(managerId: Option<int>)
    | ChangeOwner(ownerId: Option<int>)
    | ChangeTags(tags: seq<string>)

  /** Which count a units input edits. */
  datatype UnitCount = Total | Occupied

  /** `Math.max(0, total - occupied)`. */
  function VacantOf(total: int, occupied: int): (vacant: int)
    ensures vacant >= 0
    ensures occupied <= total ==> vacant == total - occupied
    ensures occupied > total ==> vacant == 0
  {
    if total - occupied > 0 then total - occupied else 0
  }

  /** `handleFieldChange`: stores the value; a units value gets its vacancy
      recomputed from its own total and occupied counts. */
  function HandleFieldChange(form: PropertyFormData, change: FieldChange): (r: PropertyFormData)
    ensures change.ChangeUnits? ==>
      && r == form.(units := r.units)
      && r.units.total == change.units.total
      && r.units.occupied == change.units.occupied
      && VacantDerived(r.units)
    ensures !change.ChangeUnits? ==> r.units == form.units
    ensures change.ChangeName? ==> r == form.(name := change.name)
    ensures change.ChangeAddress? ==> r == form.(address := change.address)
    ensures change.ChangeCity? ==> r == form.(city := change.city)
    ensures change.ChangeMonthlyRevenue? ==> r == form.(monthlyRevenue := change.revenue)
    ensures change.ChangeManager? ==> r == form.(managerId := change.managerId)
    ensures change.ChangeOwner? ==> r == form.(ownerId := change.ownerId)
    ensures change.ChangeDescription? ==> r == form.(description := change.description)
    ensures change.ChangeThumbnail? ==> r == form.(thumbnail := change.thumbnail)
    ensures change.ChangeAverageRent? ==> r == form.(averageRent := change.rent)
    ensures change.ChangeStatus? ==> r == form.(status := change.status)
    ensures change.ChangeTags? ==> r == form.(tags := change.tags)
  {
    match change
    case ChangeName(v) => form.(name := v)
    case ChangeAddress(v) => form.(address := v)
    case ChangeCity(v) => form.(city := v)
    case ChangeDescription(v) => form.(description := v)
    case ChangeThumbnail(v) => form.(thumbnail := v)
    case ChangeUnits(u) => form.(units := u.(vacant := VacantOf(u.total, u.occupied)))
    case ChangeMonthlyRevenue(v) => form.(monthlyRevenue := v)
    case ChangeAverageRent(v) => form.(averageRent := v)
    case ChangeStatus(v) => form.(status := v)
    case ChangeManager(v) => form.(managerId := v)
    case ChangeOwner(v) => form.(ownerId := v)
    case ChangeTags(v) => form.(tags := v)
  }

  /** `handleUnitsChange(type, value)`: a cleared input (`null`) counts as 0;
      only the edited count and the vacancy change, and the vacancy is
      `total - occupied` floored at zero. */
  function HandleUnitsChange(form: PropertyFormData, which: UnitCount, value: Option<int>): (r: PropertyFormData)
    ensures r == form.(units := r.units)
    ensures which == Total ==> r.units.total == value.GetOr(0) && r.units.occupied == form.units.occupied
    ensures which == Occupied ==> r.units.occupied == value.GetOr(0) && r.units.total == form.units.total
    ensures value.None? && which == Total ==> r.units.total == 0
    ensures value.None? && which == Occupied ==> r.units.occupied == 0
    ensures r.units.vacant >= 0
    ensures r.units.occupied <= r.units.total ==> r.units.vacant == r.units.total - r.units.occupied
  {
    var n := if value.Some? then value.value else 0;
    var units := match which
      case Total => form.units.(total := n)
      case Occupied => form.units.(occupied := n);
    HandleFieldChange(form, ChangeUnits(units.(vacant := VacantOf(units.total, units.occupied))))
  }

  /** The revenue input's `onChange`: a cleared input stores 0. */
  function HandleRevenueInput(form: PropertyFormData, value: Option<real>): (r: PropertyFormData)
    ensures r == form.(monthlyRevenue := r.monthlyRevenue)
    ensures value.None? ==> r.monthlyRevenue == 0.0
    ensures value.Some? ==> r.monthlyRevenue == value.value
  {
    HandleFieldChange(form, ChangeMonthlyRevenue(value.GetOr(0.0)))
  }

  /** The average-rent input's `onChange`: a cleared input stores 0. */
  function HandleAverageRentInput(form: PropertyFormData, value: Option<real>): (r: PropertyFormData)
    ensures r == form.(averageRent := r.averageRent)
    ensures value.None? ==> r.averageRent == 0.0
    ensures value.Some? ==> r.averageRent == value.value
  {
    HandleFieldChange(form, ChangeAverageRent(value.GetOr(0.0)))
  }

  /** Any units edit, from any form, leaves the vacancy consistent. */
  lemma UnitsEditKeepsVacancyDerived(form: PropertyFormData, which: UnitCount, value: Option<int>)
    ensures VacantDerived(HandleUnitsChange(form, which, value).units)
  {
  }

  /** The effect of `open` turning true: the form is reset to the default and
      the errors cleared; otherwise nothing happens. */
  function OnOpenChange(s: ModalState, open: bool): (r: ModalState)
    ensures open ==> r.form == DefaultPropertyForm && r.errors == map[]
    ensures open ==> r.submitting == s.submitting
    ensures !open ==> r == s
  {
    if open then s.(form := DefaultPropertyForm, errors := map[]) else s
  }

  /** The reset form already satisfies the vacancy rule (1 total, 0 occupied,
      1 vacant), and it cannot be saved until a name and the rest are given. */
  lemma ResetFormConsistent(s: ModalState, unitRule: UnitRule)
    ensures VacantDerived(OnOpenChange(s, true).form.units)
    ensures OnOpenChange(s, true).form.units == Units(1, 0, 1)
    ensures !IsFormValid(OnOpenChange(s, true).form, unitRule)
  {
    DefaultFormInvalid(unitRule);
  }

  /** The footer buttons. */
  datatype Footer = Footer(cancelDisabled: bool, saveLoading: bool, saveDisabled: bool)

  /** Save is disabled exactly when the form is invalid and spins while a
      submit (or the parent's create) is in flight; Cancel is disabled while
      submitting. */
  function RenderFooter(s: ModalState, loading: bool, unitRule: UnitRule): (f: Footer)
    ensures f.saveDisabled <==> |ValidateForm(s.form, unitRule)| > 0
    ensures f.saveLoading <==> s.submitting || loading
    ensures f.cancelDisabled <==> s.submitting
  {
    Footer(s.submitting, s.submitting || loading, !IsFormValid(s.form, unitRule))
  }

  /** How the parent's `onSubmit` promise settles. */
  datatype SubmitOutcome = Resolved | Rejected

  /** What one `handleSubmit` does: the error map it computes (and drops), the
      next state, the form handed to `onSubmit` if it was called, whether
      `onClose` was called, and the notice. */
  datatype SubmitEffect = SubmitEffect(
    validationErrors: Errors, state: ModalState, submitted: Option<PropertyFormData>,
    closed: bool, notice: Notice)

  /** `handleSubmit`: a form with any validation error is not submitted; a
      submitted form closes the modal only when `onSubmit` resolves; and
      `submitting` is false whichever way the handler leaves. The error map is
      computed but not stored, so the displayed errors do not change. */
  function HandleSubmit(s: ModalState, unitRule: UnitRule, outcome: SubmitOutcome): (r: SubmitEffect)
    ensures r.validationErrors == ValidateForm(s.form, unitRule)
    ensures r.submitted.Some? <==> |r.validationErrors| == 0
    ensures r.submitted.Some? ==> r.submitted.value == s.form
    ensures r.closed <==> r.submitted.Some? && outcome == Resolved
    ensures !r.state.submitting
    ensures r.state.form == s.form && r.state.errors == s.errors
    ensures r.notice.Success? <==> r.closed
  {
    var submitting := s.(submitting := true);
    var errors := ValidateForm(submitting.form, unitRule);
    if |errors| > 0 then
      SubmitEffect(errors, submitting.(submitting := false), None, false,
                   Failure("Please fix the form errors before submitting"))
    else
      match outcome
      case Resolved =>
        SubmitEffect(errors, submitting.(submitting := false), Some(s.form), true,
                     Success("Property created successfully!"))
      case Rejected =>
        SubmitEffect(errors, submitting.(submitting := false), Some(s.form), false,
                     Failure("Failed to create property. Please try again."))
  }

  /** Save is enabled exactly when a submit would reach `onSubmit`. */
  lemma SaveEnabledIffSubmitCallsParent(s: ModalState, loading: bool, unitRule: UnitRule, outcome: SubmitOutcome)
    ensures !RenderFooter(s, loading, unitRule).saveDisabled <==>
      HandleSubmit(s, unitRule, outcome).submitted.Some?
  {
  }

  /** `onSubmit` is called exactly for a form `isFormValid` accepts, so a form
      with any validation error never reaches the parent. */
  lemma SubmitIffFormValid(s: ModalState, unitRule: UnitRule, outcome: SubmitOutcome)
    ensures HandleSubmit(s, unitRule, outcome).submitted.Some? <==> IsFormValid(s.form, unitRule)
  {
  }

  /** The image field is wired to `handleFieldChange('thumbnail', url)`, so
      removing the uploaded file clears the thumbnail, returns the uploader
      to idle, and leaves every other field of the form as it was. */
  lemma ThumbnailRemovalClearsField<T>(form: PropertyFormData, uploader: ImageUpload.UploaderState<T>, fileList: seq<T>)
    ensures var e := ImageUpload.HandleChange(uploader, "removed", fileList);
      && e.1.Some?
      && e.0.uploadState == ImageUpload.Idle
      && HandleFieldChange(form, ChangeThumbnail(e.1.value)) == form.(thumbnail := "")
  {
  }
}

=== FILE: bulk_actions_bar.dfy ===
/**
 * The floating bulk-actions bar (components/properties/BulkActionsBar.tsx)
 * as a function of the number of selected properties.
 */
module BulkActionsBar {
  import opened Text

  datatype BarView = BarView(
    visible: bool,
    selectionText: string,
    remindersDisabled: bool,
    archiveDisabled: bool,
    exportDisabled: bool,
    clearDisabled: bool)

  function Render(selectedCount: int): (v: BarView)
    ensures v.visible <==> selectedCount > 0
    ensures v.remindersDisabled <==> selectedCount == 0
    ensures v.archiveDisabled <==> selectedCount == 0
    ensures v.exportDisabled <==> selectedCount == 0
    ensures !v.clearDisabled
    ensures v.selectionText == IntToDecimal(selectedCount) + " " + PropertyNoun(selectedCount) + " selected"
  {
    var none := selectedCount == 0;
    BarView(selectedCount > 0, CountPhrase(selectedCount) + " selected", none, none, none, false)
  }

  /** The label reads back: its leading digits decode to the selected count,
      and the rest is the noun (`PropertyNoun`: singular exactly for one) and
      "selected". */
  lemma SelectionTextReadsBack(selectedCount: int)
    ensures selectedCount >= 0 ==>
      var text := Render(selectedCount).selectionText;
      var n := |IntToDecimal(selectedCount)|;
      && n <= |text|
      && AllDigits(text[..n]) && DecimalValue(text[..n]) == selectedCount
      && text[n..] == " " + PropertyNoun(selectedCount) + " selected"
  {
    if selectedCount >= 0 {
      CountPhraseReadsBack("", selectedCount, " selected");
      assert "" + CountPhrase(selectedCount) == CountPhrase(selectedCount);
    }
  }
}

=== FILE: enums.dfy ===
/**
 * The dashboard's string enums (types/enums.ts). Each constructor knows the
 * string it carries at run time, and `Parse...` recovers the constructor from
 * that string, so a formatter can be stated over any run-time string.
 */
module Enums {
  import opened Options

  datatype PaymentStatus = Paid | Overdue | Pending {
    function Value(): string {
      match this
      case Paid => "paid"
      case Overdue => "overdue"
      case Pending => "pending"
    }
  }

  /** The status carried by a run-time string, if it is one of the enum's values. */
  function ParsePaymentStatus(raw: string): (r: Option<PaymentStatus>)
    ensures r.Some? ==> r.value.Value() == raw
    ensures forall s: PaymentStatus :: raw == s.Value() ==> r == Some(s)
  {
    if raw == "paid" then Some(Paid)
    else if raw == "overdue" then Some(Overdue)
    else if raw == "pending" then Some(Pending)
    else None
  }

  datatype ChartPeriod = Daily | Weekly | Monthly | Yearly {
    function Value(): string {
      match this
      case Daily => "daily"
      case Weekly => "weekly"
      case Monthly => "monthly"
      case Yearly => "yearly"
    }
  }

  function ParseChartPeriod(raw: string): (r: Option<ChartPeriod>)
    ensures r.Some? ==> r.value.Value() == raw
    ensures forall p: ChartPeriod :: raw == p.Value() ==> r == Some(p)
  {
    if raw == "daily" then Some(Daily)
    else if raw == "weekly" then Some(Weekly)
    else if raw == "monthly" then Some(Monthly)
    else if raw == "yearly" then Some(Yearly)
    else None
  }

  datatype ActivityType =
    | PaymentReceived | TenantAdded | PropertyListed | InvoiceSent | MaintenanceScheduled
  {
    function Value(): string {
      match this
      case PaymentReceived => "payment_received"
      case TenantAdded => "tenant_added"
      case PropertyListed => "property_listed"
      case InvoiceSent => "invoice_sent"
      case MaintenanceScheduled => "maintenance_scheduled"
    }
  }

  function ParseActivityType(raw: string): (r: Option<ActivityType>)
    ensures r.Some? ==> r.value.Value() == raw
    ensures forall t: ActivityType :: raw == t.Value() ==> r == Some(t)
  {
    if raw == "payment_received" then Some(PaymentReceived)
    else if raw == "tenant_added" then Some(TenantAdded)
    else if raw == "property_listed" then Some(PropertyListed)
    else if raw == "invoice_sent" then Some(InvoiceSent)
    else if raw == "maintenance_scheduled" then Some(MaintenanceScheduled)
    else None
  }
}

=== FILE: form_validation.dfy ===
/**
 * The property form validator (hooks/useFormValidation.ts): one rule per
 * field, and the aggregate that collects the non-empty messages under error
 * keys. The unit rule (`formatUnitValidation`) is not part of this model and
 * is passed in as an arbitrary function of (total, occupied).
 */
module FormValidation {
  import opened Options
  import opened Text
  import opened Schema

  /** The form's fields, as `validateField` is asked about them. */
  datatype Field =
    | Name | Address | City | Description | Thumbnail | UnitsField
    | MonthlyRevenue | AverageRent | Status | ManagerId | OwnerId | Tags

  /** The keys an error map may carry. */
  datatype ErrorKey =
    | NameKey | AddressKey | CityKey | ThumbnailKey | TotalUnitsKey
    | OccupiedUnitsKey | MonthlyRevenueKey | ManagerIdKey | OwnerIdKey

  type Errors = map<ErrorKey, string>

  /** The message the unit rule produces for (total, occupied); "" when fine. */
  type UnitRule = (int, int) -> string

  const NameRequired := "Property name is required"
  const AddressRequired := "Address is required"
  const CityRequired := "City is required"
  const RevenueNegative := "Monthly revenue must be a positive number"
  const ManagerRequired := "Please select a property manager"
  const OwnerRequired := "Please select a property owner"

  /** `!value || value.trim() === ''`. */
  predicate BlankText(v: Option<string>) {
    v.None? || v.value == "" || Trim(v.value) == ""
  }

  /** A text passes the trimmed-required rule exactly when it is present and
      holds some non-whitespace character. */
  lemma BlankTextIffWhitespaceOnly(v: Option<string>)
    ensures BlankText(v) <==> v.None? || IsBlank(v.value)
  {
    if v.Some? {
      TrimSpec(v.value);
    }
  }

  /** `!value` on an id: missing, or the falsy id 0. */
  predicate FalsyId(v: Option<int>) {
    v.None? || v.value == 0
  }

  /** The name rule: required, and not whitespace only. */
  function NameError(name: Option<string>): (msg: string)
    ensures msg != "" <==> BlankText(name)
    ensures msg != "" ==> msg == NameRequired
  {
    if BlankText(name) then NameRequired else ""
  }

  /** The address rule: required, and not whitespace only. */
  function AddressError(address: Option<string>): (msg: string)
    ensures msg != "" <==> BlankText(address)
    ensures msg != "" ==> msg == AddressRequired
  {
    if BlankText(address) then AddressRequired else ""
  }

  /** The city rule: required; unlike name and address it does not trim. */
  function CityError(city: Option<string>): (msg: string)
    ensures msg != "" <==> city.None? || city.value == ""
    ensures msg != "" ==> msg == CityRequired
  {
    if city.None? || city.value == "" then CityRequired else ""
  }

  /** The revenue rule: zero is accepted, only negatives fail. */
  function RevenueError(revenue: real): (msg: string)
    ensures msg != "" <==> revenue < 0.0
    ensures msg != "" ==> msg == RevenueNegative
  {
    if revenue < 0.0 then RevenueNegative else ""
  }

  /** The manager and owner rules: a falsy id fails. */
  function ContactError(contactId: Option<int>, required: string): (msg: string)
    requires required != ""
    ensures msg != "" <==> FalsyId(contactId)
    ensures msg != "" ==> msg == required
  {
    if FalsyId(contactId) then required else ""
  }

  /** `validateField`: the rule for one field; fields without a rule pass. */
  function ValidateField(field: Field, form: PropertyFormData, unitRule: UnitRule): (msg: string)
    ensures field == Name ==> (msg != "" <==> BlankText(form.name))
    ensures field == Name && msg != "" ==> msg == NameRequired
    ensures field == Address ==> (msg != "" <==> BlankText(form.address))
    ensures field == Address && msg != "" ==> msg == AddressRequired
    ensures field == City ==> (msg != "" <==> form.city.None? || form.city.value == "")
    ensures field == City && msg != "" ==> msg == CityRequired
    ensures field == MonthlyRevenue ==> (msg != "" <==> form.monthlyRevenue < 0.0)
    ensures field == MonthlyRevenue && msg != "" ==> msg == RevenueNegative
    ensures field == ManagerId ==> (msg != "" <==> FalsyId(form.managerId))
    ensures field == ManagerId && msg != "" ==> msg == ManagerRequired
    ensures field == OwnerId ==> (msg != "" <==> FalsyId(form.ownerId))
    ensures field == OwnerId && msg != "" ==> msg == OwnerRequired
    ensures field == UnitsField ==> msg == unitRule(form.units.total, form.units.occupied)
    ensures field in {Description, Thumbnail, AverageRent, Status, Tags} ==> msg == ""
  {
    match field
    case Name => NameError(form.name)
    case Address => AddressError(form.address)
    case City => CityError(form.city)
    case UnitsField => UnitsError(form, unitRule)
    case MonthlyRevenue => RevenueError(form.monthlyRevenue)
    case ManagerId => ContactError(form.managerId, ManagerRequired)
    case OwnerId => ContactError(form.ownerId, OwnerRequired)
    case _ => ""
  }

  /** The units rule, delegated to the unit rule on the form's counts. */
  function UnitsError(form: PropertyFormData, unitRule: UnitRule): string {
    unitRule(form.units.total, form.units.occupied)
  }

  /** Adds `msg` under `key` only when it is non-empty (`if (error) ...`). */
  function AddIfSet(errors: Errors, key: ErrorKey, msg: string): (r: Errors)
    ensures key in r <==> key in errors || msg != ""
    ensures msg != "" ==> r[key] == msg
    ensures forall k :: k != key ==> (k in r <==> k in errors)
    ensures forall k :: k in errors && k != key ==> r[k] == errors[k]
  {
    if msg != "" then errors[key := msg] else errors
  }

  /** The error key a unit message is routed to: total units if it mentions
      "total", otherwise occupied units if it mentions "occupied", otherwise
      none, and the message is dropped. */
  function UnitsKey(msg: string): Option<ErrorKey> {
    if Contains(msg, "total") then Some(TotalUnitsKey)
    else if Contains(msg, "occupied") then Some(OccupiedUnitsKey)
    else None
  }

  /** The units step of `validateForm`. */
  function RouteUnitsError(errors: Errors, msg: string): (r: Errors)
    ensures forall k :: (k in r <==> k in errors || Some(k) == UnitsKey(msg))
    ensures UnitsKey(msg).Some? ==> r[UnitsKey(msg).value] == msg
    ensures forall k :: k in errors && Some(k) != UnitsKey(msg) ==> r[k] == errors[k]
  {
    if msg == "" then errors
    else if Contains(msg, "total") then errors[TotalUnitsKey := msg]
    else if Contains(msg, "occupied") then errors[OccupiedUnitsKey := msg]
    else errors
  }

  /** The message each key should end up with, "" for none: the reference
      `validateForm` is checked against. */
  function KeyMessage(k: ErrorKey, form: PropertyFormData, unitRule: UnitRule): string {
    var u := UnitsError(form, unitRule);
    match k
    case NameKey => NameError(form.name)
    case AddressKey => AddressError(form.address)
    case CityKey => CityError(form.city)
    case TotalUnitsKey => if UnitsKey(u) == Some(TotalUnitsKey) then u else ""
    case OccupiedUnitsKey => if UnitsKey(u) == Some(OccupiedUnitsKey) then u else ""
    case MonthlyRevenueKey => RevenueError(form.monthlyRevenue)
    case ManagerIdKey => ContactError(form.managerId, ManagerRequired)
    case OwnerIdKey => ContactError(form.ownerId, OwnerRequired)
    case ThumbnailKey => ""
  }

  /** At key `k`, `errors` holds the reference message if `k` was processed
      and that message is non-empty, and nothing otherwise. */
  predicate AgreesAt(errors: Errors, k: ErrorKey, processed: bool, form: PropertyFormData, unitRule: UnitRule) {
    && (k in errors <==> processed && KeyMessage(k, form, unitRule) != "")
    && (k in errors ==> errors[k] == KeyMessage(k, form, unitRule))
  }

  /** `errors` holds exactly the non-empty reference messages of `keys`. */
  predicate AgreesOn(errors: Errors, keys: set<ErrorKey>, form: PropertyFormData, unitRule: UnitRule) {
    && AgreesAt(errors, NameKey, NameKey in keys, form, unitRule)
    && AgreesAt(errors, AddressKey, AddressKey in keys, form, unitRule)
    && AgreesAt(errors, CityKey, CityKey in keys, form, unitRule)
    && AgreesAt(errors, ThumbnailKey, ThumbnailKey in keys, form, unitRule)
    && AgreesAt(errors, TotalUnitsKey, TotalUnitsKey in keys, form, unitRule)
    && AgreesAt(errors, OccupiedUnitsKey, OccupiedUnitsKey in keys, form, unitRule)
    && AgreesAt(errors, MonthlyRevenueKey, MonthlyRevenueKey in keys, form, unitRule)
    && AgreesAt(errors, ManagerIdKey, ManagerIdKey in keys, form, unitRule)
    && AgreesAt(errors, OwnerIdKey, OwnerIdKey in keys, form, unitRule)
  }

  /** Agreement on every key, listed, is agreement at every key. */
  lemma AgreesEverywhere(errors: Errors, form: PropertyFormData, unitRule: UnitRule)
    requires AgreesOn(errors, AllKeys, form, unitRule)
    ensures forall k :: k in errors <==> KeyMessage(k, form, unitRule) != ""
    ensures forall k :: k in errors ==> errors[k] == KeyMessage(k, form, unitRule)
  {
    forall k ensures AgreesAt(errors, k, true, form, unitRule) {
      assert k in AllKeys by {
        match k
        case NameKey =>
        case AddressKey =>
        case CityKey =>
        case ThumbnailKey =>
        case TotalUnitsKey =>
        case OccupiedUnitsKey =>
        case MonthlyRevenueKey =>
        case ManagerIdKey =>
        case OwnerIdKey =>
      }
    }
  }

  const AllKeys := {NameKey, AddressKey, CityKey, ThumbnailKey, TotalUnitsKey,
                    OccupiedUnitsKey, MonthlyRevenueKey, ManagerIdKey, OwnerIdKey}
  const TextKeys := {NameKey, AddressKey, CityKey}
  const UnitKeys := {TotalUnitsKey, OccupiedUnitsKey}

  /** The first three steps of `validateForm`: name, address, city. */
  function TextFieldErrors(form: PropertyFormData, unitRule: UnitRule): (errors: Errors)
    ensures AgreesOn(errors, TextKeys, form, unitRule)
  {
    var e0: Errors := map[];
    var e1 := AddIfSet(e0, NameKey, NameError(form.name));
    assert AgreesOn(e1, {NameKey}, form, unitRule);
    var e2 := AddIfSet(e1, AddressKey, AddressError(form.address));
    assert AgreesOn(e2, {NameKey, AddressKey}, form, unitRule);
    AddIfSet(e2, CityKey, CityError(form.city))
  }

  /** The units step of `validateForm`, after the text fields. */
  function UnitFieldErrors(form: PropertyFormData, unitRule: UnitRule): (errors: Errors)
    ensures AgreesOn(errors, TextKeys + UnitKeys, form, unitRule)
  {
    RouteUnitsError(TextFieldErrors(form, unitRule), UnitsError(form, unitRule))
  }

  /** The revenue and manager steps of `validateForm`. */
  function ContactFieldErrors(form: PropertyFormData, unitRule: UnitRule): (errors: Errors)
    ensures AgreesOn(errors, TextKeys + UnitKeys + {MonthlyRevenueKey, ManagerIdKey}, form, unitRule)
  {
    var e4 := UnitFieldErrors(form, unitRule);
    var e5 := AddIfSet(e4, MonthlyRevenueKey, RevenueError(form.monthlyRevenue));
    assert AgreesOn(e5, TextKeys + UnitKeys + {MonthlyRevenueKey}, form, unitRule);
    AddIfSet(e5, ManagerIdKey, ContactError(form.managerId, ManagerRequired))
  }

  /** The owner step, the last of `validateForm`. */
  function AllFieldErrors(form: PropertyFormData, unitRule: UnitRule): (errors: Errors)
    ensures AgreesOn(errors, AllKeys, form, unitRule)
  {
    AddIfSet(ContactFieldErrors(form, unitRule), OwnerIdKey, ContactError(form.ownerId, OwnerRequired))
  }

  /** `validateForm`: a key for each failing field, holding that field's
      message, and no other key. */
  function ValidateForm(form: PropertyFormData, unitRule: UnitRule): (errors: Errors)
    ensures forall k :: k in errors <==> KeyMessage(k, form, unitRule) != ""
    ensures forall k :: k in errors ==> errors[k] == KeyMessage(k, form, unitRule)
  {
    var errors := AllFieldErrors(form, unitRule);
    AgreesEverywhere(errors, form, unitRule);
    errors
  }

  /** Field by field: which keys `validateForm` reports, and with what. */
  lemma ValidateFormFields(form: PropertyFormData, unitRule: UnitRule)
    ensures var errors := ValidateForm(form, unitRule);
      && (forall k :: k in errors ==> errors[k] != "")
      && ThumbnailKey !in errors
      && (NameKey in errors <==> form.name.None? || IsBlank(form.name.value))
      && (NameKey in errors ==> errors[NameKey] == NameRequired)
      && (AddressKey in errors <==> form.address.None? || IsBlank(form.address.value))
      && (AddressKey in errors ==> errors[AddressKey] == AddressRequired)
      && (CityKey in errors <==> form.city.None? || form.city.value == "")
      && (CityKey in errors ==> errors[CityKey] == CityRequired)
      && (MonthlyRevenueKey in errors <==> form.monthlyRevenue < 0.0)
      && (MonthlyRevenueKey in errors ==> errors[MonthlyRevenueKey] == RevenueNegative)
      && (ManagerIdKey in errors <==> FalsyId(form.managerId))
      && (ManagerIdKey in errors ==> errors[ManagerIdKey] == ManagerRequired)
      && (OwnerIdKey in errors <==> FalsyId(form.ownerId))
      && (OwnerIdKey in errors ==> errors[OwnerIdKey] == OwnerRequired)
  {
    BlankTextIffWhitespaceOnly(form.name);
    BlankTextIffWhitespaceOnly(form.address);
  }

  /** The error key `validateForm` files a field's message under; the units
      message is routed by its wording instead. */
  function FieldKey(field: Field): Option<ErrorKey> {
    match field
    case Name => Some(NameKey)
    case Address => Some(AddressKey)
    case City => Some(CityKey)
    case MonthlyRevenue => Some(MonthlyRevenueKey)
    case ManagerId => Some(ManagerIdKey)
    case OwnerId => Some(OwnerIdKey)
    case _ => None
  }

  /** A field with its own key gets the reference message of that key. */
  lemma FieldMessageIsKeyMessage(f: Field, form: PropertyFormData, unitRule: UnitRule)
    requires FieldKey(f).Some?
    ensures KeyMessage(FieldKey(f).value, form, unitRule) == ValidateField(f, form, unitRule)
  {
    match f
    case Name =>
    case Address =>
    case City =>
    case MonthlyRevenue =>
    case ManagerId =>
    case OwnerId =>
  }

  /** `validateForm` is `validateField` field by field: a field with its own
      key is reported under it exactly when `validateField` fails, with that
      message. */
  lemma ValidateFormAgreesWithValidateField(f: Field, form: PropertyFormData, unitRule: UnitRule)
    ensures var errors := ValidateForm(form, unitRule);
      FieldKey(f).Some? ==>
        && (FieldKey(f).value in errors <==> ValidateField(f, form, unitRule) != "")
        && (FieldKey(f).value in errors ==> errors[FieldKey(f).value] == ValidateField(f, form, unitRule))
  {
    if FieldKey(f).Some? {
      FieldMessageIsKeyMessage(f, form, unitRule);
    }
  }

  /** The units message `validateField` returns is what `validateForm`
      files under the key its wording selects. */
  lemma ValidateFormRoutesValidateField(form: PropertyFormData, unitRule: UnitRule)
    ensures var errors := ValidateForm(form, unitRule);
      var u := ValidateField(UnitsField, form, unitRule);
      && (TotalUnitsKey in errors <==> UnitsKey(u) == Some(TotalUnitsKey))
      && (OccupiedUnitsKey in errors <==> UnitsKey(u) == Some(OccupiedUnitsKey))
      && (TotalUnitsKey in errors ==> errors[TotalUnitsKey] == u)
      && (OccupiedUnitsKey in errors ==> errors[OccupiedUnitsKey] == u)
  {
  }

  /** The unit message lands under total units if it mentions "total", else
      under occupied units if it mentions "occupied", else nowhere. */
  lemma ValidateFormRoutesUnits(form: PropertyFormData, unitRule: UnitRule)
    ensures var errors := ValidateForm(form, unitRule);
      var u := unitRule(form.units.total, form.units.occupied);
      && (TotalUnitsKey in errors <==> Contains(u, "total"))
      && (OccupiedUnitsKey in errors <==> !Contains(u, "total") && Contains(u, "occupied"))
      && (TotalUnitsKey in errors ==> errors[TotalUnitsKey] == u)
      && (OccupiedUnitsKey in errors ==> errors[OccupiedUnitsKey] == u)
  {
    var u := unitRule(form.units.total, form.units.occupied);
    if Contains(u, "total") || Contains(u, "occupied") {
      ContainsIffOccurs(u, "total");
      ContainsIffOccurs(u, "occupied");
      assert u != "";
    }
  }

  /** `isFormValid`: no field fails. A unit message that mentions neither
      "total" nor "occupied" does not block the form. */
  function IsFormValid(form: PropertyFormData, unitRule: UnitRule): (ok: bool)
    ensures ok <==>
      var u := unitRule(form.units.total, form.units.occupied);
      && !(form.name.None? || IsBlank(form.name.value))
      && !(form.address.None? || IsBlank(form.address.value))
      && !(form.city.None? || form.city.value == "")
      && !Contains(u, "total") && !Contains(u, "occupied")
      && form.monthlyRevenue >= 0.0
      && !FalsyId(form.managerId) && !FalsyId(form.ownerId)
  {
    var errors := ValidateForm(form, unitRule);
    ValidateFormFields(form, unitRule);
    ValidateFormRoutesUnits(form, unitRule);
    NoKeysIffEmpty(errors);
    |errors| == 0
  }

  /** `Object.keys(errors).length === 0` holds exactly when no key is present. */
  lemma NoKeysIffEmpty(errors: Errors)
    ensures |errors| == 0 <==> forall k :: k !in errors
  {
    if |errors| != 0 {
      var k :| k in errors.Keys;
    }
  }

  /** A whitespace-only name is rejected, while a whitespace-only city is not:
      only the name and address rules trim. */
  lemma WhitespaceNameRejectedCityAccepted(form: PropertyFormData, unitRule: UnitRule)
    requires form.name == Some("  ") && form.city == Some("  ")
    ensures NameKey in ValidateForm(form, unitRule)
    ensures CityKey !in ValidateForm(form, unitRule)
  {
  }

  /** A revenue of zero passes; only a negative revenue fails. */
  lemma ZeroRevenueAccepted(form: PropertyFormData, unitRule: UnitRule)
    requires form.monthlyRevenue == 0.0
    ensures MonthlyRevenueKey !in ValidateForm(form, unitRule)
  {
  }

  /** The default form is never valid: its name is empty. */
  lemma DefaultFormInvalid(unitRule: UnitRule)
    ensures !IsFormValid(DefaultPropertyForm, unitRule)
    ensures NameKey in ValidateForm(DefaultPropertyForm, unitRule)
  {
  }
}

=== FILE: formatters.dfy ===
/**
 * The enum-to-label formatters of utils/formatters.ts. Each takes the
 * run-time string the `switch` inspects, so the `default` branch is reachable.
 */
module Formatters {
  import opened Options
  import opened Enums

  function FormatPaymentStatus(raw: string): (name: string)
    ensures name == "Unknown" <==> ParsePaymentStatus(raw).None?
  {
    if raw == Paid.Value() then "Paid"
    else if raw == Overdue.Value() then "Overdue"
    else if raw == Pending.Value() then "Pending"
    else "Unknown"
  }

  /** Reads a payment-status label back; the partner of `FormatPaymentStatus`. */
  function PaymentStatusOfLabel(name: string): Option<PaymentStatus> {
    if name == "Paid" then Some(Paid)
    else if name == "Overdue" then Some(Overdue)
    else if name == "Pending" then Some(Pending)
    else None
  }

  /** Every status gets its own label: the label determines the status. */
  lemma PaymentStatusLabelsRoundTrip(s: PaymentStatus)
    ensures PaymentStatusOfLabel(FormatPaymentStatus(s.Value())) == Some(s)
    ensures FormatPaymentStatus(s.Value()) != "Unknown"
  {
  }

  lemma PaymentStatusLabelsDistinct(s: PaymentStatus, t: PaymentStatus)
    ensures s != t ==> FormatPaymentStatus(s.Value()) != FormatPaymentStatus(t.Value())
  {
    PaymentStatusLabelsRoundTrip(s);
    PaymentStatusLabelsRoundTrip(t);
  }

  function FormatChartPeriod(raw: string): (name: string)
    ensures name == "Monthly" <==> ParseChartPeriod(raw) in {None, Some(Monthly)}
  {
    if raw == Daily.Value() then "Daily"
    else if raw == Weekly.Value() then "Weekly"
    else if raw == Monthly.Value() then "Monthly"
    else if raw == Yearly.Value() then "Yearly"
    else "Monthly"
  }

  function ChartPeriodOfLabel(name: string): Option<ChartPeriod> {
    if name == "Daily" then Some(Daily)
    else if name == "Weekly" then Some(Weekly)
    else if name == "Monthly" then Some(Monthly)
    else if name == "Yearly" then Some(Yearly)
    else None
  }

  /** The four periods get four distinct labels... */
  lemma ChartPeriodLabelsRoundTrip(p: ChartPeriod)
    ensures ChartPeriodOfLabel(FormatChartPeriod(p.Value())) == Some(p)
  {
  }

  /** ...but over all run-time strings the formatter is not injective: an
      unknown period is labelled exactly like the monthly one. */
  lemma ChartPeriodFallbackCollides()
    ensures FormatChartPeriod("hourly") == FormatChartPeriod(Monthly.Value())
  {
  }

  function FormatActivityType(raw: string): (name: string)
    ensures name == "Activity" <==> ParseActivityType(raw).None?
  {
    if raw == PaymentReceived.Value() then "Payment Received"
    else if raw == TenantAdded.Value() then "New Tenant Added"
    else if raw == PropertyListed.Value() then "Property Listed"
    else if raw == InvoiceSent.Value() then "Invoice Sent"
    else if raw == MaintenanceScheduled.Value() then "Maintenance Scheduled"
    else "Activity"
  }

  function ActivityTypeOfLabel(name: string): Option<ActivityType> {
    if name == "Payment Received" then Some(PaymentReceived)
    else if name == "New Tenant Added" then Some(TenantAdded)
    else if name == "Property Listed" then Some(PropertyListed)
    else if name == "Invoice Sent" then Some(InvoiceSent)
    else if name == "Maintenance Scheduled" then Some(MaintenanceScheduled)
    else None
  }

  /** The five activity types get pairwise-distinct labels. */
  lemma ActivityTypeLabelsRoundTrip(t: ActivityType)
    ensures ActivityTypeOfLabel(FormatActivityType(t.Value())) == Some(t)
    ensures FormatActivityType(t.Value()) != "Activity"
  {
  }
}

=== FILE: image_upload.dfy ===
/**
 * The image upload field (components/properties/PropertyImageUpload.tsx):
 * the pre-check run on a chosen file and the change handler's removal branch.
 * Reading the file and the simulated delay are not modelled.
 */
module ImageUpload {
  import opened Options

  datatype UploadState = Idle | Uploading | Success | Error

  /** A chosen file: its MIME type and its size in bytes. */
  datatype FileInfo = FileInfo(mimeType: string, size: nat)

  datatype Verdict = Accepted | RejectedFormat | RejectedSize

  const AcceptedTypes: set<string> := {"image/jpeg", "image/png", "image/webp"}

  /** Five mebibytes, the exclusive size limit. */
  const MaxBytes := 5 * 1024 * 1024

  /** The source's size test, `size / 1024 / 1024 < 5`, in exact arithmetic. */
  predicate UnderLimitAsWritten(size: nat) {
    (size as real) / 1024.0 / 1024.0 < 5.0
  }

  /** Dividing by 1024 twice and comparing with 5 is the same as comparing
      the byte count with 5 MiB. */
  lemma UnderLimitIsByteBound(size: nat)
    ensures UnderLimitAsWritten(size) <==> size < MaxBytes
  {
    var x := (size as real) / 1024.0 / 1024.0;
    assert x * 1048576.0 == size as real;
  }

  /** `beforeUpload`: the type is checked first, then the size. */
  function BeforeUpload(file: FileInfo): (v: Verdict)
    ensures v == RejectedFormat <==> file.mimeType !in AcceptedTypes
    ensures v == RejectedSize <==> file.mimeType in AcceptedTypes && file.size >= 5242880
    ensures v == Accepted <==> file.mimeType in AcceptedTypes && file.size < 5242880
  {
    if file.mimeType !in AcceptedTypes then RejectedFormat
    else if !UnderLimitAsWritten(file.size) then
      UnderLimitIsByteBound(file.size);
      RejectedSize
    else
      UnderLimitIsByteBound(file.size);
      Accepted
  }

  /** A file of the wrong type is refused as such even when it is also too
      large: the format check wins. */
  lemma FormatCheckedFirst(mimeType: string, size: nat)
    requires mimeType !in AcceptedTypes && size >= MaxBytes
    ensures BeforeUpload(FileInfo(mimeType, size)) == RejectedFormat
  {
  }

  datatype UploaderState<T> = UploaderState(uploadState: UploadState, fileList: seq<T>)

  /** `handleChange`: the file list always follows the upload widget; when the
      changed file was removed the field's value is cleared and the state
      returns to idle. Any other status leaves the state and emits nothing. */
  function HandleChange<T>(s: UploaderState<T>, status: string, fileList: seq<T>): (e: (UploaderState<T>, Option<string>))
    ensures e.0.fileList == fileList
    ensures status == "removed" ==> e.0.uploadState == Idle && e.1 == Some("")
    ensures status != "removed" ==> e.0.uploadState == s.uploadState && e.1 == None
  {
    if status == "removed" then (UploaderState(Idle, fileList), Some(""))
    else (s.(fileList := fileList), None)
  }
}

=== FILE: lookup.dfy ===
/**
 * `Array.prototype.find` by numeric id, and the reducer idiom built on it:
 * find the first element whose id matches and change that element in place.
 */
module Lookup {
  import opened Options

  /** Some element of `xs` has id `id`. */
  predicate HasId<T>(xs: seq<T>, id: T -> int, key: int) {
    exists i :: 0 <= i < |xs| && id(xs[i]) == key
  }

  /** `k` is the position of the first element of `xs` with id `key`. */
  predicate IsFirstMatch<T>(xs: seq<T>, id: T -> int, key: int, k: int) {
    && 0 <= k < |xs|
    && id(xs[k]) == key
    && forall j :: 0 <= j < k ==> id(xs[j]) != key
  }

  /** The position `find` stops at, if any. */
  function FindFirst<T>(xs: seq<T>, id: T -> int, key: int): (r: Option<nat>)
    ensures r.None? <==> !HasId(xs, id, key)
    ensures r.Some? ==> IsFirstMatch(xs, id, key, r.value)
  {
    if |xs| == 0 then None
    else if id(xs[0]) == key then Some(0)
    else
      match FindFirst(xs[1..], id, key)
      case None =>
        assert forall i :: 1 <= i < |xs| ==> xs[i] == xs[1..][i - 1];
        None
      case Some(k) =>
        assert xs[k + 1] == xs[1..][k];
        assert forall j :: 1 <= j < k + 1 ==> xs[j] == xs[1..][j - 1];
        Some(k + 1)
  }

  /** There is only one first match. */
  lemma FirstMatchUnique<T>(xs: seq<T>, id: T -> int, key: int, k: int, k': int)
    requires IsFirstMatch(xs, id, key, k) && IsFirstMatch(xs, id, key, k')
    ensures k == k'
  {
  }

  /** Finds the first element with id `key` and replaces it by `change` of it;
      with no such element the sequence is returned as it was. */
  function UpdateFirst<T>(xs: seq<T>, id: T -> int, key: int, change: T -> T): (r: seq<T>)
    ensures |r| == |xs|
    ensures !HasId(xs, id, key) ==> r == xs
    ensures forall k :: IsFirstMatch(xs, id, key, k) ==> r == xs[k := change(xs[k])]
  {
    match FindFirst(xs, id, key)
    case None => xs
    case Some(k) =>
      assert forall k' :: IsFirstMatch(xs, id, key, k') ==> k' == k;
      xs[k := change(xs[k])]
  }
}

=== FILE: options.dfy ===
/** The optional value used throughout the model for JavaScript's `null`/`undefined`. */
module Options {

  datatype Option<+T> = None | Some(value: T) {

    /** The value, or `default` when absent (JavaScript's `value || default` on non-falsy values). */
    function GetOr(default: T): T {
      match this
      case Some(v) => v
      case None => default
    }
  }
}

=== FILE: properties_grid.dfy ===
/**
 * The card grid (components/properties/PropertiesGrid.tsx): the empty
 * placeholder, one card per property, and the pagination control.
 */
module PropertiesGrid {
  import opened Options
  import opened Schema

  /** The default page size. */
  const DefaultPageSize := 12

  /** One card: the property's id and whether it is shown as selected. */
  datatype Card = Card(id: int, selected: bool)

  datatype GridView =
    | EmptyPlaceholder
    | Cards(cards: seq<Card>, paginationShown: bool)

  /** Every property gets a card, in order, whatever the current page. */
  function CardsOf(properties: seq<Property>, selected: seq<int>): (cards: seq<Card>)
    ensures |cards| == |properties|
    ensures forall i :: 0 <= i < |properties| ==>
      cards[i].id == properties[i].id && (cards[i].selected <==> properties[i].id in selected)
  {
    if |properties| == 0 then []
    else [Card(properties[0].id, properties[0].id in selected)] + CardsOf(properties[1..], selected)
  }

  /** `total && total > pageSize`: a missing or zero total hides the control. */
  predicate PaginationShown(total: Option<int>, pageSize: int) {
    total.Some? && total.value != 0 && total.value > pageSize
  }

  /** The grid: the placeholder when there is nothing to show and nothing is
      loading, otherwise all cards and, when the total exceeds a page, the
      pagination control. `currentPage` is handed to the control only. */
  function Render(properties: seq<Property>, selected: seq<int>, loading: bool,
                  pageSize: int, total: Option<int>): (v: GridView)
    ensures v.EmptyPlaceholder? <==> |properties| == 0 && !loading
    ensures v.Cards? ==> v.cards == CardsOf(properties, selected)
    ensures v.Cards? ==> (v.paginationShown <==> total.Some? && total.value > pageSize && total.value != 0)
  {
    if |properties| == 0 && !loading then EmptyPlaceholder
    else Cards(CardsOf(properties, selected), PaginationShown(total, pageSize))
  }
}

=== FILE: properties_page.dfy ===
/**
 * The properties page controller (components/properties/PropertiesPage.tsx):
 * the handlers that change the view mode, the filters and the selection, the
 * three bulk actions with their empty-selection guard, and what the page
 * renders. Store dispatches become state updates; the mutations' results and
 * the `message` toasts become an outcome parameter and a returned `Notice`.
 */
module PropertiesPage {
  import opened Options
  import opened Text
  import opened Schema
  import PropertiesTable
  import PropertiesGrid
  import BulkActionsBar

  datatype ViewMode = Table | Grid

  /** The page's slice of the store. The filter record is opaque to the page,
      so it is a type parameter. */
  datatype PageState<F> = PageState(viewMode: ViewMode, filters: F, selected: seq<int>)

  /** The view-mode toggle touches only the view mode. */
  function HandleViewModeChange<F>(s: PageState<F>, mode: ViewMode): (t: PageState<F>)
    ensures t.viewMode == mode
    ensures t.filters == s.filters && t.selected == s.selected
  {
    s.(viewMode := mode)
  }

  /** New filters are stored and the selection is cleared, since the
      selected rows may no longer be shown. */
  function HandleFiltersChange<F>(s: PageState<F>, filters: F): (t: PageState<F>)
    ensures t.filters == filters
    ensures |t.selected| == 0
    ensures t.viewMode == s.viewMode
  {
    s.(filters := filters, selected := [])
  }

  /** Select-all replaces the selection with the given ids; unselect-all
      clears it. */
  function HandleSelectAll<F>(s: PageState<F>, selected: bool, ids: seq<int>): (t: PageState<F>)
    ensures selected ==> t.selected == ids
    ensures !selected ==> |t.selected| == 0
    ensures t.viewMode == s.viewMode && t.filters == s.filters
  {
    if selected then s.(selected := ids) else s.(selected := [])
  }

  /** The bar's Clear button. */
  function HandleClearSelection<F>(s: PageState<F>): (t: PageState<F>)
    ensures |t.selected| == 0
    ensures t.viewMode == s.viewMode && t.filters == s.filters
  {
    s.(selected := [])
  }

  datatype BulkAction = SendReminders | Archive | ExportCsv

  /** What the mutation would answer if it were called: the count it reports
      on success, or a failure. */
  datatype MutationOutcome = Succeeded(count: int) | Failed

  /** The state after the handler, the ids the mutation was called with (if
      it was called) and the toast shown. */
  datatype BulkEffect<F> = BulkEffect(state: PageState<F>, mutationCall: Option<seq<int>>, notice: Notice)

  function EmptySelectionWarning(action: BulkAction): string {
    match action
    case SendReminders => "Please select properties to send reminders"
    case Archive => "Please select properties to archive"
    case ExportCsv => "Please select properties to export"
  }

  /** The text before the count in each success toast. */
  function SuccessPrefix(action: BulkAction): string {
    match action
    case SendReminders => "Reminders sent to "
    case Archive => ""
    case ExportCsv => "CSV export ready! "
  }

  /** The text after the noun in each success toast. */
  function SuccessSuffix(action: BulkAction): string {
    match action
    case SendReminders => ""
    case Archive => " archived successfully"
    case ExportCsv => " exported"
  }

  /** The success toast names the count the mutation reports, which need not
      be the number of selected ids. */
  function SuccessText(action: BulkAction, count: int): string {
    SuccessPrefix(action) + CountPhrase(count) + SuccessSuffix(action)
  }

  /** A success toast reads back: after the action's fixed prefix come digits
      that decode to the reported count, then the noun (`PropertyNoun`:
      singular exactly for a count of one) and the action's suffix. */
  lemma SuccessTextReadsBack(action: BulkAction, count: int)
    ensures count >= 0 ==>
      var text := SuccessText(action, count);
      var p := |SuccessPrefix(action)|;
      var n := |IntToDecimal(count)|;
      && p + n <= |text|
      && text[..p] == SuccessPrefix(action)
      && AllDigits(text[p..p + n]) && DecimalValue(text[p..p + n]) == count
      && text[p + n..] == " " + PropertyNoun(count) + SuccessSuffix(action)
  {
    if count >= 0 {
      CountPhraseReadsBack(SuccessPrefix(action), count, SuccessSuffix(action));
    }
  }

  function FailureText(action: BulkAction): string {
    match action
    case SendReminders => "Failed to send reminders"
    case Archive => "Failed to archive properties"
    case ExportCsv => "Failed to export CSV"
  }

  /** `handleSendReminders`, `handleArchiveSelected` and `handleExportCSV`:
      an empty selection only warns; otherwise the mutation gets the selected
      ids, and the selection is cleared on success and kept on failure. */
  function HandleBulkAction<F>(s: PageState<F>, action: BulkAction, outcome: MutationOutcome): (e: BulkEffect<F>)
    ensures e.mutationCall.None? <==> |s.selected| == 0
    ensures e.mutationCall.Some? ==> e.mutationCall.value == s.selected
    ensures |s.selected| == 0 ==> e.state == s && e.notice == Warning(EmptySelectionWarning(action))
    ensures |s.selected| > 0 && outcome.Succeeded? ==>
      |e.state.selected| == 0 && e.notice == Success(SuccessText(action, outcome.count))
    ensures |s.selected| > 0 && outcome.Failed? ==>
      e.state == s && e.notice == Failure(FailureText(action))
    ensures e.state.viewMode == s.viewMode && e.state.filters == s.filters
  {
    if |s.selected| == 0 then
      BulkEffect(s, None, Warning(EmptySelectionWarning(action)))
    else
      match outcome
      case Succeeded(count) =>
        BulkEffect(HandleClearSelection(s), Some(s.selected), Success(SuccessText(action, count)))
      case Failed =>
        BulkEffect(s, Some(s.selected), Failure(FailureText(action)))
  }

  /** The fixed text before the property id in a per-row action's toast;
      none for an action the switch does not know. */
  function ActionPrefix(action: string): Option<string> {
    if action == "view" then Some("Viewing property ")
    else if action == "edit" then Some("Editing property ")
    else if action == "invoices" then Some("Viewing invoices for property ")
    else if action == "tenants" then Some("Managing tenants for property ")
    else None
  }

  /** A per-row action only shows an informational toast; an unknown action
      shows nothing. No case changes the state. */
  function HandlePropertyAction<F>(s: PageState<F>, action: string, propertyId: int): (e: (PageState<F>, Option<Notice>))
    ensures e.0 == s
    ensures e.1.Some? <==> action in {"view", "edit", "invoices", "tenants"}
    ensures e.1.Some? ==> e.1.value.Info?
  {
    match ActionPrefix(action)
    case Some(prefix) => (s, Some(Info(prefix + IntToDecimal(propertyId))))
    case None => (s, None)
  }

  /** A per-row toast reads back: after the action's fixed text come the
      digits of the property id (after a minus sign for a negative id), and
      nothing else. */
  lemma PropertyActionTextReadsBack<F>(s: PageState<F>, action: string, propertyId: int)
    requires ActionPrefix(action).Some?
    ensures var text := HandlePropertyAction(s, action, propertyId).1.value.text;
      var prefix := ActionPrefix(action).value;
      var p := |prefix|;
      && p < |text|
      && text[..p] == prefix
      && (propertyId >= 0 ==> AllDigits(text[p..]) && DecimalValue(text[p..]) == propertyId)
      && (propertyId < 0 ==> text[p] == '-' && AllDigits(text[p + 1..]) && DecimalValue(text[p + 1..]) == -propertyId)
  {
    var prefix := ActionPrefix(action).value;
    var d := IntToDecimal(propertyId);
    SlicesOfConcat(prefix, d, "");
    assert prefix + d + "" == prefix + d;
    assert (prefix + d)[|prefix|..][1..] == d[1..];
  }

  datatype Body = TableBody(table: PropertiesTable.TableView) | GridBody(grid: PropertiesGrid.GridView)

  datatype PageView =
    | Spinner
    | Loaded(body: Body, bar: BulkActionsBar.BarView)

  /** While the query loads only a spinner is shown. Otherwise the table is
      shown exactly in table mode and the grid in every other mode, given the
      full list as its total and the grid's default page size; the bar gets
      the selection's length. */
  function Render<F>(s: PageState<F>, properties: seq<Property>, isLoading: bool): (v: PageView)
    ensures v.Spinner? <==> isLoading
    ensures v.Loaded? ==> (v.body.TableBody? <==> s.viewMode == Table)
    ensures v.Loaded? && v.body.TableBody? ==>
      v.body.table == PropertiesTable.Render(properties, s.selected, false)
    ensures v.Loaded? && v.body.GridBody? ==>
      v.body.grid == PropertiesGrid.Render(properties, s.selected, false,
                                           PropertiesGrid.DefaultPageSize, Some(|properties|))
    ensures v.Loaded? ==> v.bar == BulkActionsBar.Render(|s.selected|)
  {
    if isLoading then Spinner
    else
      var body :=
        if s.viewMode == Table then TableBody(PropertiesTable.Render(properties, s.selected, isLoading))
        else GridBody(PropertiesGrid.Render(properties, s.selected, isLoading,
                                            PropertiesGrid.DefaultPageSize, Some(|properties|)));
      Loaded(body, BulkActionsBar.Render(|s.selected|))
  }

  /** On the page the grid paginates exactly when there are more properties
      than fit on one default page, and shows its placeholder exactly when
      there are none. */
  lemma GridOnPage<F>(s: PageState<F>, properties: seq<Property>)
    requires s.viewMode == Grid
    ensures Render(s, properties, false).body.GridBody?
    ensures var g := Render(s, properties, false).body.grid;
      (g.EmptyPlaceholder? <==> |properties| == 0) &&
      (g.Cards? ==> (g.paginationShown <==> |properties| > 12))
  {
  }

  /** Ticking the table header selects every row of the data source:
      afterwards the header is checked and so is every row's checkbox. */
  lemma HeaderSelectAllChecksEverything<F>(s: PageState<F>, rows: seq<Property>)
    requires |rows| > 0
    ensures var ev := PropertiesTable.HeaderToggle(true, rows);
      var t := HandleSelectAll(s, ev.0, ev.1);
      PropertiesTable.HeaderChecked(t.selected, rows) &&
      forall i :: 0 <= i < |rows| ==> PropertiesTable.RowChecked(t.selected, rows[i])
  {
    var ev := PropertiesTable.HeaderToggle(true, rows);
    var t := HandleSelectAll(s, ev.0, ev.1);
    forall i | 0 <= i < |rows|
      ensures PropertiesTable.RowChecked(t.selected, rows[i])
    {
      assert t.selected[i] == rows[i].id;
    }
  }

  /** Unticking the header leaves no row checked and the bar hidden. */
  lemma HeaderUnselectAllClearsEverything<F>(s: PageState<F>, rows: seq<Property>)
    ensures var ev := PropertiesTable.HeaderToggle(false, rows);
      var t := HandleSelectAll(s, ev.0, ev.1);
      PropertiesTable.Header(t.selected, rows) == PropertiesTable.Unchecked &&
      (forall i :: 0 <= i < |rows| ==> !PropertiesTable.RowChecked(t.selected, rows[i])) &&
      !BulkActionsBar.Render(|t.selected|).visible
  {
  }

  /** A bar button is enabled exactly when pressing it gets past the
      empty-selection guard and calls the mutation. */
  lemma BarButtonsMatchGuard<F>(s: PageState<F>, outcome: MutationOutcome)
    ensures var bar := BulkActionsBar.Render(|s.selected|);
      (!bar.remindersDisabled <==> HandleBulkAction(s, SendReminders, outcome).mutationCall.Some?) &&
      (!bar.archiveDisabled <==> HandleBulkAction(s, Archive, outcome).mutationCall.Some?) &&
      (!bar.exportDisabled <==> HandleBulkAction(s, ExportCsv, outcome).mutationCall.Some?)
  {
  }

  /** After a successful bulk action the bar hides; after a failed one it
      still shows the same selection. */
  lemma BulkActionBarAfterwards<F>(s: PageState<F>, action: BulkAction, outcome: MutationOutcome)
    requires |s.selected| > 0
    ensures outcome.Succeeded? ==> !BulkActionsBar.Render(|HandleBulkAction(s, action, outcome).state.selected|).visible
    ensures outcome.Failed? ==> BulkActionsBar.Render(|HandleBulkAction(s, action, outcome).state.selected|)
                                == BulkActionsBar.Render(|s.selected|)
  {
  }

  /** Changing the filters hides the bar, whatever was selected. */
  lemma FiltersChangeHidesBar<F>(s: PageState<F>, filters: F)
    ensures !BulkActionsBar.Render(|HandleFiltersChange(s, filters).selected|).visible
  {
  }

  /** Switching the view mode picks what the loaded page shows: the table
      exactly after switching to table mode, the grid otherwise, over the same
      selection; the bulk-actions bar is not affected. */
  lemma ViewModeChangeSelectsBody<F>(s: PageState<F>, mode: ViewMode, properties: seq<Property>)
    ensures var v := Render(HandleViewModeChange(s, mode), properties, false);
      && v.Loaded?
      && (v.body.TableBody? <==> mode == Table)
      && (v.body.TableBody? ==> v.body.table == PropertiesTable.Render(properties, s.selected, false))
      && (v.body.GridBody? ==> v.body.grid.Cards? ==> v.body.grid.cards == PropertiesGrid.CardsOf(properties, s.selected))
      && v.bar == Render(s, properties, false).bar
  {
  }
}

=== FILE: properties_table.dfy ===
/**
 * The derived state of the properties table
 * (components/properties/PropertiesTable.tsx): the header and row checkboxes
 * and the two column comparators.
 */
module PropertiesTable {
  import opened Schema

  /** The header checkbox is checked when as many ids are selected as the data
      source has rows, and it has rows. It compares counts, not ids. */
  predicate HeaderChecked(selected: seq<int>, rows: seq<Property>) {
    |selected| == |rows| && |rows| > 0
  }

  /** The header checkbox is indeterminate when some but fewer ids than the
      data source has rows are selected. */
  predicate HeaderIndeterminate(selected: seq<int>, rows: seq<Property>) {
    |selected| > 0 && |selected| < |rows|
  }

  /** A row's checkbox is checked when its id is selected. */
  predicate RowChecked(selected: seq<int>, row: Property) {
    row.id in selected
  }

  datatype HeaderState = Unchecked | Indeterminate | Checked

  /** The header's visible state; never both checked and indeterminate. */
  function Header(selected: seq<int>, rows: seq<Property>): (h: HeaderState)
    ensures h == Checked <==> |selected| == |rows| && |rows| > 0
    ensures h == Indeterminate <==> 0 < |selected| < |rows|
    ensures h == Unchecked <==> |selected| == 0 || |selected| > |rows|
  {
    if HeaderChecked(selected, rows) then Checked
    else if HeaderIndeterminate(selected, rows) then Indeterminate
    else Unchecked
  }

  /** Because only counts are compared, the header can show "all selected"
      while a row of the data source is not selected: two rows, two selected
      ids, one of them not among the rows. */
  lemma HeaderCheckedWithoutMembership(p: Property, q: Property)
    requires p.id == 1 && q.id == 2
    ensures HeaderChecked([1, 3], [p, q])
    ensures !RowChecked([1, 3], q)
  {
  }

  /** The header's `onChange` payload: the new checked flag and the ids of
      every row of the data source, in data-source order (rows on other
      pages of the table included). */
  function HeaderToggle(checked: bool, rows: seq<Property>): (event: (bool, seq<int>))
    ensures event.0 == checked
    ensures |event.1| == |rows|
    ensures forall i :: 0 <= i < |rows| ==> event.1[i] == rows[i].id
  {
    (checked, Ids(rows))
  }

  /** The "Monthly Revenue" comparator: `a.monthlyRevenue - b.monthlyRevenue`. */
  function RevenueCompare(a: Property, b: Property): (c: real)
    ensures c < 0.0 <==> a.monthlyRevenue < b.monthlyRevenue
    ensures c == 0.0 <==> a.monthlyRevenue == b.monthlyRevenue
    ensures c > 0.0 <==> a.monthlyRevenue > b.monthlyRevenue
  {
    a.monthlyRevenue - b.monthlyRevenue
  }

  /** The "Last Payment" comparator: two missing dates tie, a missing date
      sorts after a present one, and two present dates compare by timestamp. */
  function LastPaymentCompare(a: Property, b: Property): (c: int)
    ensures a.lastPaymentDate.None? && b.lastPaymentDate.None? ==> c == 0
    ensures a.lastPaymentDate.None? && b.lastPaymentDate.Some? ==> c > 0
    ensures a.lastPaymentDate.Some? && b.lastPaymentDate.None? ==> c < 0
    ensures a.lastPaymentDate.Some? && b.lastPaymentDate.Some? ==>
      (c < 0 <==> a.lastPaymentDate.value < b.lastPaymentDate.value) &&
      (c == 0 <==> a.lastPaymentDate.value == b.lastPaymentDate.value)
  {
    if a.lastPaymentDate.None? && b.lastPaymentDate.None? then 0
    else if a.lastPaymentDate.None? then 1
    else if b.lastPaymentDate.None? then -1
    else a.lastPaymentDate.value - b.lastPaymentDate.value
  }

  function Sign(x: int): int {
    if x < 0 then -1 else if x > 0 then 1 else 0
  }

  /** The last-payment comparator is antisymmetric and reflexive... */
  lemma LastPaymentCompareAntisymmetric(a: Property, b: Property)
    ensures Sign(LastPaymentCompare(a, b)) == -Sign(LastPaymentCompare(b, a))
    ensures LastPaymentCompare(a, a) == 0
  {
  }

  /** ...and its "sorts no later than" relation is transitive, so it is a
      total preorder that the table's sort can rely on. */
  lemma LastPaymentCompareTransitive(a: Property, b: Property, c: Property)
    requires LastPaymentCompare(a, b) <= 0 && LastPaymentCompare(b, c) <= 0
    ensures LastPaymentCompare(a, c) <= 0
  {
  }

  /** The same for the revenue comparator. */
  lemma RevenueCompareTotalPreorder(a: Property, b: Property, c: Property)
    ensures RevenueCompare(a, b) <= 0.0 || RevenueCompare(b, a) <= 0.0
    ensures RevenueCompare(a, b) <= 0.0 && RevenueCompare(b, c) <= 0.0 ==> RevenueCompare(a, c) <= 0.0
    ensures RevenueCompare(a, b) == -RevenueCompare(b, a)
  {
  }

  /** One table row: the record's id and whether its checkbox is ticked. */
  datatype RowView = RowView(id: int, checked: bool)

  datatype TableView = TableView(header: HeaderState, rows: seq<RowView>, loading: bool)

  /** One row per record of the data source, in data-source order, ticked
      exactly when its id is selected. */
  function RowViews(properties: seq<Property>, selected: seq<int>): (rows: seq<RowView>)
    ensures |rows| == |properties|
    ensures forall i :: 0 <= i < |properties| ==>
      rows[i].id == properties[i].id && (rows[i].checked <==> properties[i].id in selected)
  {
    if |properties| == 0 then []
    else [RowView(properties[0].id, RowChecked(selected, properties[0]))]
         + RowViews(properties[1..], selected)
  }

  /** The table's selection column over its data source. */
  function Render(properties: seq<Property>, selected: seq<int>, loading: bool): (v: TableView)
    ensures v.header == Header(selected, properties)
    ensures v.rows == RowViews(properties, selected)
    ensures v.loading == loading
    ensures |v.rows| == |properties|
    ensures v.header == Checked ==> |selected| == |v.rows|
  {
    TableView(Header(selected, properties), RowViews(properties, selected), loading)
  }
}

=== FILE: schema.dfy ===
/**
 * The property records the properties screens work on, and the notices
 * (`message.info/success/warning/error`) their handlers raise.
 */
module Schema {
  import opened Options

  /** Unit counts of a property; `vacant` is derived from the other two. */
  datatype Units = Units(total: int, occupied: int, vacant: int)

  /** The vacancy the add-property form derives: `max(0, total - occupied)`. */
  predicate VacantDerived(u: Units) {
    u.vacant == if u.occupied <= u.total then u.total - u.occupied else 0
  }

  datatype PropertyStatus = Active | Vacant | Archived

  /** The add-property form. `None` stands for a missing (`null`/`undefined`) value. */
  datatype PropertyFormData = PropertyFormData(
    name: Option<string>,
    address: Option<string>,
    city: Option<string>,
    description: string,
    thumbnail: string,
    units: Units,
    monthlyRevenue: real,
    averageRent: real,
    status: PropertyStatus,
    managerId: Option<int>,
    ownerId: Option<int>,
    tags: seq<string>)

  /** The form a freshly opened modal shows (data/addPropertyMockData.ts). */
  const DefaultPropertyForm := PropertyFormData(
    Some(""), Some(""), Some(""), "", "", Units(1, 0, 1), 0.0, 0.0, Active, None, None, [])

  /** A catalog row as the table and grid display it. `lastPaymentDate` is the
      parsed timestamp, `None` when the record has no payment date. */
  datatype Property = Property(
    id: int,
    name: string,
    address: string,
    city: string,
    units: Units,
    monthlyRevenue: real,
    lastPaymentDate: Option<int>,
    status: PropertyStatus)

  /** The ids of `properties`, in data-source order (`properties.map(p => p.id)`). */
  function Ids(properties: seq<Property>): (ids: seq<int>)
    ensures |ids| == |properties|
    ensures forall i :: 0 <= i < |properties| ==> ids[i] == properties[i].id
  {
    if |properties| == 0 then [] else [properties[0].id] + Ids(properties[1..])
  }

  datatype Notice =
    | Info(text: string)
    | Success(text: string)
    | Warning(text: string)
    | Failure(text: string)
}

=== FILE: store.dfy ===
/**
 * The global store's notification and payment slices (store/index.ts).
 * A reducer is a pure function from slice state and action payload to the
 * next slice state.
 */
module Store {
  import opened Lookup
  import opened Enums

  datatype Notification = Notification(
    id: int, title: string, message: string, timestamp: int, read: bool)

  /** The notifications slice. `unreadCount` is kept separately from the items'
      `read` flags and is not derived from them. */
  datatype NotificationsState = NotificationsState(unreadCount: int, items: seq<Notification>)

  function NotificationId(n: Notification): int { n.id }

  function AsRead(n: Notification): Notification { n.(read := true) }

  /** The slice invariant the counter is meant to keep. */
  predicate CountNonNegative(s: NotificationsState) {
    s.unreadCount >= 0
  }

  /** `markAsRead(id)`: the first notification with that id becomes read and the
      counter drops by one, floored at zero; an unknown id changes nothing. The
      item's current `read` flag is not consulted. */
  function MarkAsRead(s: NotificationsState, id: int): (r: NotificationsState)
    ensures |r.items| == |s.items|
    ensures !HasId(s.items, NotificationId, id) ==> r == s
    ensures HasId(s.items, NotificationId, id) ==> CountNonNegative(r)
    ensures HasId(s.items, NotificationId, id) && s.unreadCount >= 1 ==> r.unreadCount == s.unreadCount - 1
    ensures HasId(s.items, NotificationId, id) && s.unreadCount < 1 ==> r.unreadCount == 0
    ensures forall k :: IsFirstMatch(s.items, NotificationId, id, k) ==>
      && r.items[k].read
      && r.items[k] == s.items[k].(read := true)
      && forall j :: 0 <= j < |s.items| && j != k ==> r.items[j] == s.items[j]
  {
    if HasId(s.items, NotificationId, id) then
      assert FindFirst(s.items, NotificationId, id).Some?;
      NotificationsState(
        if s.unreadCount - 1 > 0 then s.unreadCount - 1 else 0,
        UpdateFirst(s.items, NotificationId, id, AsRead))
    else
      s
  }

  /** `markAsRead` keeps the counter non-negative and never raises it. */
  lemma MarkAsReadKeepsCountNonNegative(s: NotificationsState, id: int)
    requires CountNonNegative(s)
    ensures CountNonNegative(MarkAsRead(s, id))
    ensures MarkAsRead(s, id).unreadCount <= s.unreadCount
  {
  }

  /** Marking an already-read notification again leaves the items as they are
      but still decrements the counter. */
  lemma MarkAsReadIgnoresReadFlag(s: NotificationsState, id: int, k: int)
    requires IsFirstMatch(s.items, NotificationId, id, k)
    requires s.items[k].read
    requires s.unreadCount >= 1
    ensures MarkAsRead(s, id).items == s.items
    ensures MarkAsRead(s, id).unreadCount == s.unreadCount - 1
  {
    assert HasId(s.items, NotificationId, id);
    assert s.items[k := s.items[k].(read := true)] == s.items;
  }

  /** Repeating `markAsRead(id)` changes no item a second time, but drops the
      counter again. */
  lemma MarkAsReadTwice(s: NotificationsState, id: int)
    requires HasId(s.items, NotificationId, id)
    requires s.unreadCount >= 2
    ensures MarkAsRead(MarkAsRead(s, id), id).items == MarkAsRead(s, id).items
    ensures MarkAsRead(MarkAsRead(s, id), id).unreadCount == s.unreadCount - 2
  {
    var k :| IsFirstMatch(s.items, NotificationId, id, k) by {
      var f := FindFirst(s.items, NotificationId, id);
      assert IsFirstMatch(s.items, NotificationId, id, f.value);
    }
    var t := MarkAsRead(s, id);
    assert forall j :: 0 <= j < |t.items| ==> t.items[j].id == s.items[j].id;
    assert IsFirstMatch(t.items, NotificationId, id, k);
    MarkAsReadIgnoresReadFlag(t, id, k);
  }

  /** The `forEach` of `markAllAsRead`: every item read, nothing else touched. */
  function AllRead(items: seq<Notification>): (r: seq<Notification>)
    ensures |r| == |items|
    ensures forall i :: 0 <= i < |items| ==> r[i] == items[i].(read := true)
  {
    if |items| == 0 then [] else [AsRead(items[0])] + AllRead(items[1..])
  }

  /** `markAllAsRead`: every notification is read and the counter is zero. */
  function MarkAllAsRead(s: NotificationsState): (r: NotificationsState)
    ensures r.unreadCount == 0
    ensures |r.items| == |s.items|
    ensures forall i :: 0 <= i < |r.items| ==> r.items[i].read
    ensures forall i :: 0 <= i < |r.items| ==> r.items[i] == s.items[i].(read := true)
  {
    NotificationsState(0, AllRead(s.items))
  }

  lemma MarkAllAsReadIdempotent(s: NotificationsState)
    ensures MarkAllAsRead(MarkAllAsRead(s)) == MarkAllAsRead(s)
  {
    var once := MarkAllAsRead(s);
    var twice := MarkAllAsRead(once);
    assert twice.items == once.items by {
      assert forall i :: 0 <= i < |once.items| ==> twice.items[i] == once.items[i];
    }
  }

  /** After `markAllAsRead`, a `markAsRead` changes nothing. */
  lemma MarkAsReadAfterMarkAll(s: NotificationsState, id: int)
    ensures MarkAsRead(MarkAllAsRead(s), id) == MarkAllAsRead(s)
  {
    var t := MarkAllAsRead(s);
    if HasId(t.items, NotificationId, id) {
      var f := FindFirst(t.items, NotificationId, id);
      MarkAsReadIgnoresReadFlag(t.(unreadCount := 1), id, f.value);
    }
  }

  /** The fixture's slice: the counter says 3 while only two items exist. */
  const InitialNotifications := NotificationsState(3, [
    Notification(1, "New payment received", "Payment of $1,200 received from John Doe", 0, false),
    Notification(2, "Maintenance request", "Tenant reported plumbing issue in Unit 4B", 0, false)
  ])

  /** So the counter is not the number of unread items: reading both fixture
      items leaves no unread item but a counter of 1. */
  lemma InitialCountDrifts()
    ensures MarkAsRead(MarkAsRead(InitialNotifications, 1), 2).unreadCount == 1
    ensures forall i :: 0 <= i < 2 ==> MarkAsRead(MarkAsRead(InitialNotifications, 1), 2).items[i].read
  {
    var s := InitialNotifications;
    assert IsFirstMatch(s.items, NotificationId, 1, 0);
    var t := MarkAsRead(s, 1);
    assert IsFirstMatch(t.items, NotificationId, 2, 1);
  }

  datatype Tenant = Tenant(name: string, avatar: string, initials: string)

  datatype Payment = Payment(
    id: int, invoiceId: string, dueDate: int, tenant: Tenant, amount: real, status: PaymentStatus)

  datatype PaymentsState = PaymentsState(payments: seq<Payment>)

  function PaymentId(p: Payment): int { p.id }

  function AsPaid(p: Payment): Payment { p.(status := Paid) }

  /** `markPaymentAsPaid(id)`: the first payment with that id becomes PAID and
      nothing else changes; an unknown id is a no-op. */
  function MarkPaymentAsPaid(s: PaymentsState, id: int): (r: PaymentsState)
    ensures |r.payments| == |s.payments|
    ensures !HasId(s.payments, PaymentId, id) ==> r == s
    ensures forall k :: IsFirstMatch(s.payments, PaymentId, id, k) ==>
      && r.payments[k].status == Paid
      && r.payments[k] == s.payments[k].(status := Paid)
      && forall j :: 0 <= j < |s.payments| && j != k ==> r.payments[j] == s.payments[j]
  {
    PaymentsState(UpdateFirst(s.payments, PaymentId, id, AsPaid))
  }

  lemma MarkPaymentAsPaidIdempotent(s: PaymentsState, id: int)
    ensures MarkPaymentAsPaid(MarkPaymentAsPaid(s, id), id) == MarkPaymentAsPaid(s, id)
  {
    var t := MarkPaymentAsPaid(s, id);
    if HasId(s.payments, PaymentId, id) {
      var k := FindFirst(s.payments, PaymentId, id).value;
      assert forall j :: 0 <= j < |t.payments| ==> t.payments[j].id == s.payments[j].id;
      assert IsFirstMatch(t.payments, PaymentId, id, k);
      assert t.payments[k := t.payments[k].(status := Paid)] == t.payments;
    }
  }
}

=== FILE: text.dfy ===
/**
 * String helpers the rest of the model relies on: ECMAScript's `trim`,
 * `includes`, the decimal rendering of an integer inside a template literal,
 * and the "property"/"properties" noun used by the selection messages.
 */
module Text {

  /** The code points ECMAScript's `String.prototype.trim` removes
      (the WhiteSpace and LineTerminator productions). */
  predicate IsWhitespace(c: char) {
    || c == '\t' || c == '\n' || c == '\U{B}' || c == '\U{C}' || c == '\r' || c == ' '
    || c == '\U{A0}' || c == '\U{1680}' || ('\U{2000}' <= c <= '\U{200A}')
    || c == '\U{2028}' || c == '\U{2029}' || c == '\U{202F}' || c == '\U{205F}'
    || c == '\U{3000}' || c == '\U{FEFF}'
  }

  /** A string with nothing but whitespace (the empty string included). */
  predicate IsBlank(s: string) {
    forall i :: 0 <= i < |s| ==> IsWhitespace(s[i])
  }

  /** `trimStart`: drops the leading whitespace. */
  function TrimStart(s: string): string {
    if |s| > 0 && IsWhitespace(s[0]) then TrimStart(s[1..]) else s
  }

  /** `trimEnd`: drops the trailing whitespace. */
  function TrimEnd(s: string): string {
    if |s| > 0 && IsWhitespace(s[|s| - 1]) then TrimEnd(s[..|s| - 1]) else s
  }

  /** `s.trim()`. */
  function Trim(s: string): string {
    TrimEnd(TrimStart(s))
  }

  /** TrimStart keeps a suffix of `s` that does not start with whitespace,
      and everything it drops is whitespace. */
  lemma {:induction false} TrimStartSpec(s: string)
    ensures var r := TrimStart(s);
      && |r| <= |s| && r == s[|s| - |r|..]
      && (forall i :: 0 <= i < |s| - |r| ==> IsWhitespace(s[i]))
      && (r == [] || !IsWhitespace(r[0]))
  {
    if |s| > 0 && IsWhitespace(s[0]) {
      var r := TrimStart(s[1..]);
      TrimStartSpec(s[1..]);
      assert TrimStart(s) == r;
      assert s[1..][|s| - 1 - |r|..] == s[|s| - |r|..];
      forall i | 1 <= i < |s| - |r|
        ensures IsWhitespace(s[i])
      {
        assert s[i] == s[1..][i - 1];
      }
    }
  }

  /** TrimEnd keeps a prefix of `s` that does not end with whitespace,
      and everything it drops is whitespace. */
  lemma {:induction false} TrimEndSpec(s: string)
    ensures var r := TrimEnd(s);
      && |r| <= |s| && r == s[..|r|]
      && (forall i :: |r| <= i < |s| ==> IsWhitespace(s[i]))
      && (r == [] || !IsWhitespace(r[|r| - 1]))
  {
    if |s| > 0 && IsWhitespace(s[|s| - 1]) {
      var r := TrimEnd(s[..|s| - 1]);
      TrimEndSpec(s[..|s| - 1]);
      assert TrimEnd(s) == r;
      assert s[..|s| - 1][..|r|] == s[..|r|];
      forall i | |r| <= i < |s| - 1
        ensures IsWhitespace(s[i])
      {
        assert s[i] == s[..|s| - 1][i];
      }
    }
  }

  /** Trimming leaves nothing exactly when the string is blank; otherwise the
      result is bounded by non-whitespace characters at both ends. */
  lemma TrimSpec(s: string)
    ensures Trim(s) == "" <==> IsBlank(s)
    ensures var r := Trim(s); r == "" || (!IsWhitespace(r[0]) && !IsWhitespace(r[|r| - 1]))
  {
    var t := TrimStart(s);
    TrimStartSpec(s);
    TrimEndSpec(t);
    if Trim(s) == "" {
      // a non-empty `t` would start with a non-whitespace character that
      // TrimEnd keeps, so nothing survives TrimStart at all
      assert t == [];
    } else {
      assert !IsWhitespace(t[0]);
      assert t[0] == s[|s| - |t|];
    }
  }

  /** Each part of a three-way concatenation is recovered by slicing. */
  lemma SlicesOfConcat(a: string, b: string, c: string)
    ensures (a + b + c)[..|a|] == a
    ensures (a + b + c)[|a|..|a| + |b|] == b
    ensures (a + b + c)[|a| + |b|..] == c
  {
    var t := a + b + c;
    assert forall i :: 0 <= i < |b| ==> t[|a|..|a| + |b|][i] == b[i];
  }

  /** `sub` occurs in `s` starting at position `i`. */
  predicate OccursAt(s: string, sub: string, i: int) {
    0 <= i && i + |sub| <= |s| && s[i..i + |sub|] == sub
  }

  /** `s.includes(sub)`, by scanning the start positions from left to right. */
  function Contains(s: string, sub: string): bool
    decreases |s|
  {
    if |sub| <= |s| && s[..|sub|] == sub then true
    else if |s| == 0 then false
    else Contains(s[1..], sub)
  }

  /** The scan finds `sub` exactly when it occurs somewhere in `s`. */
  lemma {:induction false} ContainsIffOccurs(s: string, sub: string)
    ensures Contains(s, sub) <==> exists i :: OccursAt(s, sub, i)
    decreases |s|
  {
    if |sub| <= |s| && s[..|sub|] == sub {
      assert OccursAt(s, sub, 0);
    } else if |s| == 0 {
    } else {
      ContainsIffOccurs(s[1..], sub);
      if Contains(s[1..], sub) {
        var i :| OccursAt(s[1..], sub, i);
        assert s[i + 1..i + 1 + |sub|] == s[1..][i..i + |sub|];
        assert OccursAt(s, sub, i + 1);
      } else {
        forall i | 1 <= i && i + |sub| <= |s|
          ensures !OccursAt(s, sub, i)
        {
          assert s[1..][i - 1..i - 1 + |sub|] == s[i..i + |sub|];
          assert !OccursAt(s[1..], sub, i - 1);
        }
      }
    }
  }

  predicate IsDigit(c: char) {
    '0' <= c <= '9'
  }

  predicate AllDigits(s: string) {
    forall i :: 0 <= i < |s| ==> IsDigit(s[i])
  }

  function DigitChar(d: int): (c: char)
    requires 0 <= d < 10
    ensures IsDigit(c) && c as int - '0' as int == d
  {
    (d + '0' as int) as char
  }

  /** The decimal digits of `n` as JavaScript prints a non-negative integer:
      at least one digit and no leading zero. */
  function NatToDecimal(n: nat): (r: string)
    ensures |r| >= 1 && AllDigits(r)
    ensures |r| > 1 ==> r[0] != '0'
    decreases n
  {
    if n < 10 then [DigitChar(n)] else NatToDecimal(n / 10) + [DigitChar(n % 10)]
  }

  /** The value of a string of decimal digits, most significant first. */
  function DecimalValue(s: string): nat
    requires AllDigits(s)
  {
    if s == [] then 0 else DecimalValue(s[..|s| - 1]) * 10 + (s[|s| - 1] as int - '0' as int)
  }

  /** Reading the printed digits back gives the number printed. */
  lemma {:induction false} DecimalRoundTrip(n: nat)
    ensures DecimalValue(NatToDecimal(n)) == n
    decreases n
  {
    if n >= 10 {
      var s := NatToDecimal(n);
      assert s[..|s| - 1] == NatToDecimal(n / 10);
      DecimalRoundTrip(n / 10);
    }
  }

  /** An integer as a template literal prints it: a minus sign for negatives. */
  function IntToDecimal(n: int): (r: string)
    ensures |r| >= 1
    ensures n >= 0 <==> r[0] != '-'
    ensures n >= 0 ==> AllDigits(r) && DecimalValue(r) == n
    ensures n < 0 ==> AllDigits(r[1..]) && DecimalValue(r[1..]) == -n
  {
    if n < 0 then
      DecimalRoundTrip(-n);
      assert ("-" + NatToDecimal(-n))[1..] == NatToDecimal(-n);
      "-" + NatToDecimal(-n)
    else
      DecimalRoundTrip(n);
      NatToDecimal(n)
  }

  /** The noun after a count: singular exactly for a count of one. */
  function PropertyNoun(count: int): (r: string)
    ensures r == "property" <==> count == 1
    ensures r == "properties" <==> count != 1
  {
    if count == 1 then "property" else "properties"
  }

  /** "<count> <noun>", the phrase every selection and result message uses. */
  function CountPhrase(count: int): string {
    IntToDecimal(count) + " " + PropertyNoun(count)
  }

  /** A count phrase embedded between any two texts reads back: the digits
      right after `pre` decode to the count and are followed by the noun. */
  lemma CountPhraseReadsBack(pre: string, count: int, suf: string)
    requires count >= 0
    ensures var text := pre + CountPhrase(count) + suf;
      var p := |pre|;
      var n := |IntToDecimal(count)|;
      && p + n <= |text|
      && text[..p] == pre
      && AllDigits(text[p..p + n]) && DecimalValue(text[p..p + n]) == count
      && text[p + n..] == " " + PropertyNoun(count) + suf
  {
    var d := IntToDecimal(count);
    var rest := " " + PropertyNoun(count) + suf;
    assert pre + CountPhrase(count) + suf == pre + d + rest;
    SlicesOfConcat(pre, d, rest);
  }
}
